=== FILE: README.md ===
# tileadder core, modelled in Dafny

tileadder is a web tool for registering tiled astronomical map data with a
tile server. An administrator browses a directory of data files below a
configured map directory. They preview the layers a file holds, then submit
a form that turns the chosen layers into a map group → map → band → layer
hierarchy in a database. The tool can also read, edit and delete that
hierarchy.

This project models the logic of that workflow as pure functions over
immutable data. It proves what each function promises.

- `paths.dfy` (`Paths`): the lexical part of `pathlib`.
  - A path is an anchor flag plus a list of components.
  - `absolute()` prepends a working directory and does not collapse "..".
  - `is_relative_to` is a component-prefix test.
  - `/` lets an absolute right operand win.
  - Also: `relative_to`, `name`, `parent`, and a lexical normalisation.
- `filesystem.dfy` (`Filesystem`): `safe_read_directory` and
  `safe_read_directory_specific_file_types`.
  - The directory is given as the result of `iterdir`: a list of names, or the
    OS error.
  - `stat` is a function from path to (is-directory, mode).
- `tables.dfy`, `store.dfy` (`Tables`, `Store`): the database.
  - Each table is a sequence of rows with integer keys, in insertion order.
  - Keys come from one counter that only grows.
  - `Store.Valid` states that keys are unique and below the counter.
- `reader.dfy` (`Reader`): the layer descriptors the data-file reader
  returns. The reader itself, `safe_evaluate`, is a parameter: a function from
  (top level, file path, extensions) to descriptors or an error.
- `creation.dfy` (`Creation`): form validation, `create_map_group`,
  `parse_map_form_to_orm` and `parse_existing_map_to_orm`. Each returns the
  error raised or the whole store after the commit. On an error nothing is
  stored.
- `existing.dfy` (`Existing`): the reads, `update_map_group`, `update_map`
  and the three deletes.
- `add_routes.dfy` (`AddRoutes`): the path arithmetic of the `/add/list`
  and `/add/evaluate` endpoints.
- `seqs.dfy`, `wrappers.dfy`, `errors.dfy`: order-preserving filtering,
  `Option`/`Result`, and one error type whose cases name the Python
  exceptions raised.

The model follows the code as written, also where its docstrings, comments
or evident intent suggest otherwise:

- The containment test is lexical, not canonical: "/data/maps/../../etc"
  passes it.
- Listed entries are relative to the searched directory, not to the root.
- The filtered listing is one list, not a pair of file and directory lists.
- The "layers not found" message lists every layer id of the form, not only
  the missing ones.
- Deleting a group removes only the group row. Any cascade belongs to the
  database schema, which is not part of this model.
- The existing-map variant finds the band by name across all maps. A band
  that does not exist is never created (see Findings).

## Model

| member | source | states |
|---|---|---|
| Paths.Absolute | tileadder/service/filesystem.py:14 | `absolute()` keeps an absolute path; a relative one is placed under the working directory: the working directory is a prefix, its own components follow, and nothing else is added |
| Paths.Join | tileadder/server/add.py:39 | `/` with an absolute right operand gives that operand; otherwise the left anchor is kept and the lengths add up (its inverse is `relative_to`, see below) |
| Paths.IsRelativeTo | tileadder/service/filesystem.py:14 | a path is relative to itself, and a path relative to a base of the same length is that base |
| Paths.IsRelativeToJoin | tileadder/service/filesystem.py:14 | `is_relative_to(base)` holds exactly when the path is `base` joined with some relative path |
| Paths.RelativeTo | tileadder/service/filesystem.py:18 | `relative_to` succeeds exactly when the base is an anchor-equal component prefix, and joining the base with the result gives the path back |
| Paths.JoinRelativeToRoundTrip | tileadder/service/filesystem.py:18 | `(search / name).relative_to(search)` is `name` again |
| Paths.Name | tileadder/server/add.py:74 | `name` is "" for a path without components; otherwise the path is its other components joined with the name |
| Paths.Parent | tileadder/server/add.py:55 | `parent` keeps the anchor, is a component prefix, and joining it with the last component rebuilds the path; the root is its own parent |
| Paths.Normalise | tileadder/service/filesystem.py:14 | the lexical normal form used by the corrected containment test has no ".." left and is no longer than its input; how each ".." acts is stated by the two lemmas below |
| Paths.NormaliseAppend | tileadder/service/filesystem.py:14 | components without ".." pass through normalisation unchanged after any prefix |
| Paths.NormaliseDropsStep | tileadder/service/filesystem.py:14 | a ".." cancels exactly the one component before it |
| Paths.NormaliseRootStep | tileadder/service/filesystem.py:14 | a ".." at the root stays at the root: a leading ".." is dropped |
| Paths.NormaliseDetour | tileadder/service/filesystem.py:14 | going down into a component and straight back out with ".." normalises as if the detour had not been taken |
| Filesystem.ChildPaths | tileadder/service/filesystem.py:17-19 | each child name becomes the one-component path relative to the searched directory, in order, with multiplicities kept |
| Filesystem.Contained | tileadder/service/filesystem.py:14 | the root itself is always contained, and for two relative paths the working directory does not matter: containment is the component-prefix test |
| Filesystem.Visible | tileadder/service/filesystem.py:18 | the names kept are, in order, exactly the listed names that do not start with "." |
| Filesystem.SafeReadDirectory | tileadder/service/filesystem.py:9-19 | a failed prefix test on the absolute paths gives the traversal error whatever the directory holds; otherwise the OS error passes through, or every non-dot child is listed exactly as often as it occurs, in iteration order, relative to the searched directory |
| Filesystem.MatchesExtension | tileadder/service/filesystem.py:43-47 | the extension loop answers true exactly when some extension is a plain suffix of the name |
| Filesystem.Keep | tileadder/service/filesystem.py:33-47 | an item without the others-read bit is dropped; a readable directory is kept; a readable file is kept exactly when its name ends with an extension |
| Filesystem.SafeReadDirectorySpecificFileTypes | tileadder/service/filesystem.py:22-49 | errors of the plain listing come through unchanged; the result is an order-preserving subsequence of the listing holding exactly the entries `Keep` accepts, and all of it when every entry passes |
| Filesystem.ListedExactlyVisible | tileadder/service/filesystem.py:17-19 | once the request is contained, an entry is reported exactly when it is the leaf of a listed name not starting with "." |
| Filesystem.ListingPermissions | tileadder/service/filesystem.py:17-47 | for any listed name: a readable non-dot directory is offered, a readable non-dot file is offered exactly when it matches an extension, an unreadable or dot entry never is |
| Filesystem.SuffixWithoutDot | tileadder/service/filesystem.py:43-45 | with the default extensions "outfits" is accepted and "survey.fit" is not |
| Filesystem.RootIsListable | tileadder/service/filesystem.py:14 | searching the root itself always passes the check |
| Filesystem.ParentStepsPassCheck | tileadder/service/filesystem.py:14 | the root followed by ".." and anything else passes the check and is listed |
| Filesystem.TraversalAccepted | tileadder/service/filesystem.py:14-19 | with root /data/maps the request "../../etc" lists "passwd", although the request normalises to /etc, outside the root |
| Filesystem.SafeReadDirectoryNormalised | tileadder/service/filesystem.py:14-15 | corrected check: the traversal error exactly when the normalised request does not start with the normalised root; otherwise the same listing as the code |
| Filesystem.NormalisedAcceptsDescendants | tileadder/service/filesystem.py:14 | the corrected check accepts the root and every path below it spelled without ".." |
| Filesystem.NormalisedAcceptsStepBack | tileadder/service/filesystem.py:14 | the corrected check still accepts a request that goes down into a component and steps back out with ".." before going on below the root |
| Filesystem.NormalisedRejectsEscape | tileadder/service/filesystem.py:14-15 | the corrected check rejects "../../etc" under /data/maps |
| Filesystem.NormalisedAgreesWithoutParentSteps | tileadder/service/filesystem.py:14 | on paths without "..", the corrected check gives the same outcome as the code's check |
| Filesystem.SafeReadDirectorySpecificFileTypesNormalised | tileadder/service/filesystem.py:22-49 | the filtered listing over the corrected check: the traversal error when the request is not contained after normalisation; otherwise exactly what the code's filtered listing gives for the request, so the OS error comes through unchanged, a readable listing succeeds, and the entries are the visible children `Keep` accepts |
| Tables.Get | tileadder/service/existing.py:151 | lookup by key finds nothing exactly when the key is absent, and otherwise the record stored under it |
| Tables.Where | tileadder/service/existing.py:67 | a `where` query returns, in table order, exactly the rows whose record satisfies the condition |
| Tables.OneOrNone | tileadder/service/existing.py:51-53 | `scalar_one_or_none` gives nothing for no rows, the row for one, and MultipleResultsFound for more |
| Tables.Update | tileadder/service/existing.py:153-157 | only the row with the key is rewritten; keys and order stay |
| Tables.Remove | tileadder/service/existing.py:189 | the key disappears; every other row stays, in order |
| Store.InsertGroup | tileadder/service/creation.py:24-26 | the group is appended under a key not used before and validity is kept |
| Store.InsertMap | tileadder/service/creation.py:117-135 | a map row and one band row owning the map are appended, with the band's layers in order; nothing else changes and validity is kept |
| Store.InsertedMapHasOneBand | tileadder/service/creation.py:131 | after the insert, exactly one band refers to the new map |
| Store.AppendLayers | tileadder/service/creation.py:213-216 | the band's existing layers are followed by the new ones; every other band, every map and every group is unchanged, and validity is kept |
| Store.InsertBand | tileadder/service/creation.py:160-167 | a new band owned by the given map is appended with the given fields and layers, under a fresh key |
| Creation.ParseLayerData | tileadder/service/creation.py:31-42 | validation succeeds exactly when every field has a declared type; `layer_id` and `included` are required; a given name, description, quantity, units, bound or colour map is kept; null or missing optional text is None, missing or "auto" bounds are "auto", a missing colour map is "viridis" |
| Creation.DefaultsOnly | tileadder/service/creation.py:31-42 | an entry with only the required fields takes every default |
| Creation.ParseLayerDataRoundTrip | tileadder/service/creation.py:31-42 | every layer entry, sent with all its fields, validates back to itself |
| Creation.IndexDescriptors | tileadder/service/creation.py:82-93 | the index holds exactly the ids in the file, each mapped to the geometry of the last descriptor with that id |
| Creation.IndexedByLast | tileadder/service/creation.py:82-93 | every indexed id belongs to a last descriptor with that id |
| Creation.LayerIds | tileadder/service/creation.py:114 | the error message carries every form layer id, in order |
| Creation.JoinLayers | tileadder/service/creation.py:95-111 | the join succeeds exactly when every included entry's id is indexed, and then yields one layer per included entry, in order, with the form's display fields, the given grant and the indexed geometry |
| Creation.ExcludedNeverLookedUp | tileadder/service/creation.py:109-110 | indexes that agree on the included ids give the same join: excluded ids are never looked up |
| Creation.DropTwo | tileadder/service/creation.py:126 | the map id is the band id without its first two characters |
| Creation.JoinedFromFile | tileadder/service/creation.py:82-107 | each joined layer carries the geometry of the last descriptor in the file with its id |
| Creation.BuildMap | tileadder/service/creation.py:80-132 | an empty file fails on element 0; otherwise the build succeeds exactly when every included id is in the file, else the "layers not found" error; the map takes the map-level fields and the trimmed id and holds one band with the form's band fields and one layer per included entry |
| Creation.OnlyIncludedLayerStored | tileadder/service/creation.py:95-111 | with file layers "layer-0-a" and "layer-0-b" and only the first included with colour map "plasma", the band holds one layer, with "plasma" and the geometry of "layer-0-a" |
| Creation.ParseMapFormToOrm | tileadder/service/creation.py:67-137 | reader errors pass through; otherwise the outcome is the build's, and on success the store is the old one plus the new map, whose key is returned; validity is kept |
| Creation.CreatedMapReadsBack | tileadder/service/creation.py:67-137 | a map created from a form is read back by `read_map` under the returned key with the form's name, description, group, grant and the band id without its first two characters |
| Creation.AppendFromFile | tileadder/service/creation.py:176-216 | an empty file fails on element 0; the append succeeds exactly when every included id is in the file; the new layers come from the file and carry the band's grant |
| Creation.ParseExistingMapToOrm | tileadder/service/creation.py:140-218 | a `MapFormData` has no `map_id`; no matching map gives the "does not exist" error and several give MultipleResultsFound; with one map, no band of that name gives UnboundLocalError, several give MultipleResultsFound; with one of each, reader errors pass through, else the layers are appended to that band and the map's key returned |
| Creation.AppendedKeepsTheRest | tileadder/service/creation.py:213-216 | appending keeps groups, maps and every other band, and places the new layers after the band's own |
| Creation.InsertBandFromFile | tileadder/service/creation.py:159-167 | the evidently intended new band: owned by the map, with the form's band fields and grant, holding one layer per included entry from the file |
| Creation.ParseExistingMapToOrmFixed | tileadder/service/creation.py:140-218 | the same lookups and errors; a missing band is created under the map with the layers from the file instead of failing; validity is kept |
| Creation.NewBandNeverCreated | tileadder/service/creation.py:159-167 | whenever the map exists, no band has the name and the file holds every included layer, the code fails with UnboundLocalError while the corrected version succeeds |
| Creation.CreateMapGroup | tileadder/service/creation.py:21-28 | exactly one row is appended to the groups, under a fresh key, holding the given name, description and grant; maps and bands are unchanged, validity is kept, and the group is listed last and reads back as created |
| Existing.BandItemOf | tileadder/service/existing.py:116-139 | a band projection copies the band's key, map, name, band id, description and grant, and has one layer projection per stored layer, in order |
| Existing.LayerItemOf | tileadder/service/existing.py:121-137 | a layer projection copies the layer's key, id, name, description, grant, quantity, units, number of levels and tile size, and names its band |
| Existing.ReadMapGroups | tileadder/service/existing.py:36-43 | one (name, id, grant) projection per stored group, in table order |
| Existing.ReadMapGroup | tileadder/service/existing.py:46-58 | not found exactly when the key is absent; otherwise the stored group's name and grant under that key |
| Existing.ReadMapGroupInListing | tileadder/service/existing.py:41-58 | reading one group succeeds exactly when the listing has that key, and gives an element of the listing |
| Existing.ReadMapsForMapGroup | tileadder/service/existing.py:61-82 | exactly the maps of the group, in table order, fields copied unchanged |
| Existing.ReadMap | tileadder/service/existing.py:85-104 | not found exactly when the key is absent; otherwise the stored map under that key |
| Existing.ListedMapsReadBack | tileadder/service/existing.py:66-104 | every map a group listing reports reads back unchanged by its key |
| Existing.ReadBandsForMap | tileadder/service/existing.py:107-141 | exactly the bands of the map, in table order, each with its layers |
| Existing.UpdateMapGroup | tileadder/service/existing.py:150-158 | a missing group fails on the attribute assignment; otherwise only that group's name, description and grant are replaced |
| Existing.UpdatedGroupReadsBack | tileadder/service/existing.py:150-158 | after the update, reading the group gives the edit back |
| Existing.RegrantBand | tileadder/service/existing.py:174-179 | the band and each of its layers get the new grant; nothing else about them changes |
| Existing.UpdateMap | tileadder/service/existing.py:167-182 | a missing map fails on the attribute assignment; otherwise that map's name, description and grant are replaced, every band of the map is regranted (band and layers take the grant, nothing else changes), and all other rows stay |
| Existing.UpdatedMapReadsBack | tileadder/service/existing.py:167-182 | after an update, `read_map` returns the new name, description and grant, and every band `read_bands_for_map` lists carries the new grant |
| Existing.DeleteMapGroup | tileadder/service/existing.py:185-192 | a missing key hands None to `delete`; otherwise exactly that key is removed, every other group stays, in order, and maps, bands and the key counter are unchanged |
| Existing.DeletedGroupUnreadable | tileadder/service/existing.py:185-192 | after deleting a group its key reads as not found and every other key reads as before |
| Existing.DeleteMap | tileadder/service/existing.py:195-202 | as for groups, on the map table; groups, bands and the key counter are unchanged |
| Existing.DeletedMapUnreadable | tileadder/service/existing.py:195-202 | after deleting a map its key reads as not found and every other key reads as before |
| Existing.DeleteBand | tileadder/service/existing.py:205-212 | as for groups, on the band table; groups, maps and the key counter are unchanged |
| Existing.DeletedBandNotListed | tileadder/service/existing.py:205-212 | a deleted band is in no band listing afterwards |
| Existing.DeleteBandKeepsSiblings | tileadder/service/existing.py:205-212 | every other band is still listed under its map, unchanged |
| AddRoutes.SearchPath | tileadder/server/add.py:38-40 | no path searches the map directory; a relative path searches below it and `relative_to` gives the request back; an absolute path replaces it |
| AddRoutes.ShowDirectory | tileadder/server/add.py:45-47 | no path, or the map directory itself, is not shown; an absolute request is shown exactly when it differs from the map directory, and a relative one exactly when the working directory followed by its components differs from the absolute map directory |
| AddRoutes.DotRequestShown | tileadder/server/add.py:38-47 | the request "." searches the map directory itself, yet is shown as a directory exactly when the working directory is not the map directory |
| AddRoutes.RequestedDirectory | tileadder/server/add.py:52 | the requested directory is the last component alone, and joined to the parent it gives the request back |
| AddRoutes.RequestedDirectoryRoundTrip | tileadder/server/add.py:52-55 | when shown, parent plus requested directory rebuild the request |
| AddRoutes.DirectoryFields | tileadder/server/add.py:52-55 | both fields are present exactly when shown, and then they are the request's last component alone and its parent, which rebuild the request |
| AddRoutes.GetList | tileadder/server/add.py:32-56 | listing errors pass through; unless exactly two entries are kept, the two-name unpacking fails, and otherwise `files` and `directories` are the two kept entries; when shown, the directory fields are the last component of the request and its parent, and rebuild it; otherwise they are absent |
| AddRoutes.FitsFilesCannotBeUnpacked | tileadder/server/add.py:41-43 | any number other than two of readable ".fits" files in the map directory makes the listing fail |
| AddRoutes.ThreeFilesCannotBeUnpacked | tileadder/server/add.py:41-43 | three readable ".fits" files make the listing fail with `ValueError: too many values to unpack` (the model records expected 2, found 3) |
| AddRoutes.GetListFixed | tileadder/server/add.py:32-56 | the evidently intended listing over the corrected check: errors pass through, a readable listing succeeds, and files and directories are two order-preserving subsequences that partition the kept entries by kind; the directory fields as in `GetList` |
| AddRoutes.SplitEntries | tileadder/server/add.py:41-43 | the kept entries split into files and directories, each in listing order, with nothing lost and each entry on the side its kind says |
| AddRoutes.Evaluate | tileadder/server/add.py:59-74 | a missing path fails on the join; an OSError of the reader becomes HTTP 500 "Error with FITS file"; other errors pass through; otherwise the layers and the request's last component as the file name |
| AddRoutes.EntryEvaluates | tileadder/server/add.py:59-74 | requesting `q / name` hands the reader the entry `name` of the directory that request `q` searches; a successful read is previewed under `name`, and a failed read fails |
| AddRoutes.ListedFileEvaluates | tileadder/server/add.py:30-74 | a file the corrected listing page offers for request `q` is a world-readable regular file whose name ends with a default extension, and requesting `q / name` previews exactly that file under the listed name |

## Left out

- Result order: every table is a sequence in insertion order, and the reads return rows in that order. The queries have no `ORDER BY`, so the database promises no order; the model fixes one.
- Disk access: `iterdir` is a given result and `stat` a given function. Symbolic links, races between listing and `stat`, and a `stat` that fails are not modelled.
- `safe_evaluate` and FITS parsing: their source is not part of this model, so the reader is a parameter. Its containment and extension checks are its own business.
- Provider serialisation through pydantic `TypeAdapter`: the provider is an opaque value copied unchanged.
- SQLAlchemy sessions, flushes, commits, rollback and database cascades: the model returns the whole new store or an error, which is what a committed-or-nothing unit of work produces.
- Floating point: bounds are `real` values or "auto" and are never computed with.
- Pydantic validation is modelled strictly: a field of the wrong JSON type is an error, with no lax coercion such as "1" to 1.0.
- Templating, logging, routing and access grants of the endpoints.
- Key lookups: primary keys are assumed unique, as the database schema enforces, so `read_map_group` and `read_map` are modelled as lookups that cannot find several rows.
- Cascading deletes: deleting a group or map removes that row only; deleting a band removes the band row together with its layers, because layers are stored inside their band. Any further cascade would be the database schema's, and the schema is not part of this model.

## Findings

| source | as written | input that shows it | evidently intended | confidence | as-written member | corrected member |
|---|---|---|---|---|---|---|
| tileadder/service/filesystem.py:14 | the containment test compares un-normalised absolute components, so ".." escapes the root | root /data/maps, request "../../etc": listed, though it names /etc | reject requests whose normal form lies outside the root | high; not executed | Filesystem.TraversalAccepted | Filesystem.SafeReadDirectoryNormalised |
| tileadder/server/add.py:41 | the one filtered list is unpacked into `files, directories` | a map directory with three readable ".fits" files: `ValueError: too many values to unpack` | split the kept entries into files and directories | high; not executed | AddRoutes.ThreeFilesCannotBeUnpacked | AddRoutes.GetListFixed |
| tileadder/service/creation.py:165 | the new-band branch reads `layers` before its assignment at line 192 | an existing map and no band with the form's name: UnboundLocalError, so no band is ever created | create the band under the map with the layers from the file | high; not executed | Creation.NewBandNeverCreated | Creation.ParseExistingMapToOrmFixed |

=== FILE: add_routes.dfy ===
/** The path arithmetic of the two listing endpoints (tileadder/server/add.py):
    `POST /add/list`, which lists a directory below the map directory, and
    `POST /add/evaluate`, which previews the layers of one file. Templates,
    logging and access grants are outside the model; the functions return the
    dictionary handed to the template, or the exception raised. */
module AddRoutes {
  import opened Wrappers
  import opened Errors
  import opened Paths
  import opened Seqs
  import opened Filesystem
  import opened Reader

  /** What `get_list` hands to its template, as written: `files` and
      `directories` are whatever the two-name unpacking bound them to. */
  datatype ListView = ListView(files: Path, directories: Path,
                               requestedDirectory: Option<Path>, parentDirectory: Option<Path>)

  /** The listing view the template evidently expects: the kept files and the
      kept directories. */
  datatype SplitListView = SplitListView(files: seq<Path>, directories: seq<Path>,
                                         requestedDirectory: Option<Path>, parentDirectory: Option<Path>)

  datatype EvaluateView = EvaluateView(filename: string, layers: seq<LayerDescriptor>)

  /** The detail of the HTTP error that replaces an OSError of the reader. */
  const FitsErrorDetail: string := "Error with FITS file"

  /** `map_directory / x.path if x.path else map_directory`. A `Path` is never
      falsy, so only a missing path selects the map directory itself. */
  function SearchPath(mapDirectory: Path, path: Option<Path>): (r: Path)
    ensures path.None? ==> r == mapDirectory
    ensures path.Some? && !path.value.absolute ==>
              RelativeTo(r, mapDirectory) == Some(path.value)
    ensures path.Some? && path.value.absolute ==> r == path.value
  {
    match path
    case None => mapDirectory
    case Some(p) =>
      assert !p.absolute ==> RelativeTo(Join(mapDirectory, p), mapDirectory) == Some(p) by {
        if !p.absolute {
          JoinRelativeToRoundTrip(mapDirectory, p);
        }
      }
      Join(mapDirectory, p)
  }

  /** `show_directory`: a path was given and, made absolute, it is not the map
      directory. The request path itself is compared, not the search path. */
  predicate ShowDirectory(mapDirectory: Path, path: Option<Path>, cwd: seq<string>)
    ensures path.None? || path == Some(mapDirectory) ==> !ShowDirectory(mapDirectory, path, cwd)
    ensures path.Some? && path.value.absolute && mapDirectory.absolute ==>
              (ShowDirectory(mapDirectory, path, cwd) <==> path.value != mapDirectory)
    ensures path.Some? && !path.value.absolute ==>
              (ShowDirectory(mapDirectory, path, cwd) <==> cwd + path.value.parts != Absolute(mapDirectory, cwd).parts)
  {
    path.Some? && Absolute(path.value, cwd) != Absolute(mapDirectory, cwd)
  }

  /** The request "." searches the map directory itself, yet it is compared
      against the working directory, so it shows a directory whenever the
      server does not run from the map directory. */
  lemma DotRequestShown(mapDirectory: Path, cwd: seq<string>)
    requires mapDirectory.absolute
    ensures SearchPath(mapDirectory, Some(Path(false, []))) == mapDirectory
    ensures ShowDirectory(mapDirectory, Some(Path(false, [])), cwd) <==> cwd != mapDirectory.parts
  {
    assert cwd + [] == cwd;
  }

  /** `x.path.relative_to(x.path.parent)`: the last component on its own. */
  function RequestedDirectory(p: Path): (r: Path)
    ensures !r.absolute
    ensures |p.parts| > 0 ==> r == Leaf(Name(p))
    ensures |p.parts| == 0 ==> r.parts == []
    ensures Join(Parent(p), r) == p
  {
    match RelativeTo(p, Parent(p))
    case Some(rel) => rel
    case None => assert false; p
  }

  /** The requested directory and its parent put the request back together,
      so the template's "up" link and the current name lose nothing. */
  lemma RequestedDirectoryRoundTrip(mapDirectory: Path, path: Option<Path>, cwd: seq<string>)
    requires ShowDirectory(mapDirectory, path, cwd)
    ensures Join(Parent(path.value), RequestedDirectory(path.value)) == path.value
    ensures |path.value.parts| > 0 ==> Parent(path.value).parts + [Name(path.value)] == path.value.parts
  {
  }

  /** The template's `requested_directory` and `parent_directory`: the last
      component of the request and its parent, both None unless a directory
      other than the map directory is shown. */
  function DirectoryFields(mapDirectory: Path, path: Option<Path>, cwd: seq<string>)
    : (r: (Option<Path>, Option<Path>))
    ensures r.0.Some? <==> ShowDirectory(mapDirectory, path, cwd)
    ensures r.1.Some? <==> ShowDirectory(mapDirectory, path, cwd)
    ensures ShowDirectory(mapDirectory, path, cwd) ==>
              && r.0 == Some(RequestedDirectory(path.value))
              && r.1 == Some(Parent(path.value))
              && Join(r.1.value, r.0.value) == path.value
  {
    if ShowDirectory(mapDirectory, path, cwd) then (Some(RequestedDirectory(path.value)), Some(Parent(path.value)))
    else (None, None)
  }

  /** `get_list` as written: the filtered listing is one list, unpacked into
      the two names `files` and `directories`, so it succeeds only when
      exactly two entries are kept, binding one path to each name. Listing
      errors come first. */
  function GetList(mapDirectory: Path, path: Option<Path>, cwd: seq<string>,
                   listing: Result<seq<string>, Error>, stat: Path -> Stat): (r: Result<ListView, Error>)
    ensures var kept := SafeReadDirectorySpecificFileTypes(mapDirectory, SearchPath(mapDirectory, path), cwd,
                                                           listing, stat, DefaultExtensions);
            && (kept.Err? ==> r == Err(kept.error))
            && (kept.Ok? && |kept.value| != 2 ==> r == Err(UnpackMismatch(2, |kept.value|)))
            && (r.Ok? ==> && kept.Ok? && |kept.value| == 2
                          && kept.value[0] == r.value.files && kept.value[1] == r.value.directories)
    ensures r.Ok? ==> (r.value.requestedDirectory.Some? <==> ShowDirectory(mapDirectory, path, cwd))
    ensures r.Ok? ==> (r.value.parentDirectory.Some? <==> ShowDirectory(mapDirectory, path, cwd))
    ensures r.Ok? && ShowDirectory(mapDirectory, path, cwd) ==>
              && r.value.requestedDirectory == Some(RequestedDirectory(path.value))
              && r.value.parentDirectory == Some(Parent(path.value))
              && Join(r.value.parentDirectory.value, r.value.requestedDirectory.value) == path.value
  {
    var kept :- SafeReadDirectorySpecificFileTypes(mapDirectory, SearchPath(mapDirectory, path), cwd,
                                                   listing, stat, DefaultExtensions);
    if |kept| != 2 then Err(UnpackMismatch(2, |kept|))
    else
      var fields := DirectoryFields(mapDirectory, path, cwd);
      Ok(ListView(kept[0], kept[1], fields.0, fields.1))
  }

  /** Every path is a plain file with mode 0644. */
  function ReadableFile(p: Path): Stat {
    Stat(false, 0x1A4)
  }

  /** Whenever the number of entries the filter keeps is not two, `get_list`
      fails: here, any number of world-readable ".fits" files other than two
      at the top of the map directory. */
  lemma FitsFilesCannotBeUnpacked(mapDirectory: Path, cwd: seq<string>, names: seq<string>)
    requires |names| != 2
    requires forall i :: 0 <= i < |names| ==> !Hidden(names[i]) && EndsWith(names[i], "fits")
    ensures GetList(mapDirectory, None, cwd, Ok(names), ReadableFile) == Err(UnpackMismatch(2, |names|))
  {
    AllFitsKept(mapDirectory, cwd, names);
  }

  /** The smallest everyday case: three readable ".fits" files. */
  lemma ThreeFilesCannotBeUnpacked(cwd: seq<string>)
    ensures GetList(SandboxRoot, None, cwd, Ok(["a.fits", "b.fits", "c.fits"]), ReadableFile)
            == Err(UnpackMismatch(2, 3))
  {
    var names := ["a.fits", "b.fits", "c.fits"];
    FitsName('a');
    FitsName('b');
    FitsName('c');
    assert names[0] == ['a'] + ".fits";
    assert names[1] == ['b'] + ".fits";
    assert names[2] == ['c'] + ".fits";
    FitsFilesCannotBeUnpacked(SandboxRoot, cwd, names);
  }

  /** A one-letter stem followed by ".fits" is a visible name with the extension. */
  lemma FitsName(c: char)
    requires c != '.'
    ensures !Hidden([c] + ".fits") && EndsWith([c] + ".fits", "fits")
  {
    var n := [c] + ".fits";
    assert n[0] == c && "."[0] == '.';
    assert n[2..] == ".fits"[1..] == "fits";
  }

  lemma AllFitsKept(top: Path, cwd: seq<string>, names: seq<string>)
    requires forall i :: 0 <= i < |names| ==> !Hidden(names[i]) && EndsWith(names[i], "fits")
    ensures SafeReadDirectorySpecificFileTypes(top, top, cwd, Ok(names), ReadableFile, DefaultExtensions)
            == Ok(ChildPaths(top, names))
  {
    var listed := ChildPaths(top, names);
    assert SafeReadDirectory(top, top, cwd, Ok(names)) == Ok(listed) by {
      VisibleAll(names);
    }
    var keep := Keeper(top, ReadableFile, DefaultExtensions);
    forall i | 0 <= i < |listed| ensures keep(listed[i]) {
      FitsFileKept(top, names[i]);
    }
    FilterKeepsAll(listed, keep);
  }

  lemma FitsFileKept(top: Path, name: string)
    requires EndsWith(name, "fits")
    ensures Keep(top, ReadableFile, DefaultExtensions, Leaf(name))
  {
    assert EndsWith(Name(Leaf(name)), DefaultExtensions[0]);
  }

  /** `get_list` as evidently intended: the corrected containment check, and
      the kept entries split into files and directories, each in listing
      order. */
  function GetListFixed(mapDirectory: Path, path: Option<Path>, cwd: seq<string>,
                        listing: Result<seq<string>, Error>, stat: Path -> Stat): (r: Result<SplitListView, Error>)
    ensures var search := SearchPath(mapDirectory, path);
            var kept := SafeReadDirectorySpecificFileTypesNormalised(mapDirectory, search, cwd, listing,
                                                                     stat, DefaultExtensions);
            && (kept.Err? ==> r == Err(kept.error))
            && (kept.Ok? ==> r.Ok?)
            && (r.Ok? ==>
                  && kept.Ok?
                  && Subsequence(r.value.files, kept.value)
                  && Subsequence(r.value.directories, kept.value)
                  && |r.value.files| + |r.value.directories| == |kept.value|
                  && (forall p :: p in r.value.files <==> p in kept.value && !stat(Join(search, p)).isDir)
                  && (forall p :: p in r.value.directories <==> p in kept.value && stat(Join(search, p)).isDir))
    ensures r.Ok? ==> (r.value.requestedDirectory.Some? <==> ShowDirectory(mapDirectory, path, cwd))
    ensures r.Ok? ==> (r.value.parentDirectory.Some? <==> ShowDirectory(mapDirectory, path, cwd))
    ensures r.Ok? && ShowDirectory(mapDirectory, path, cwd) ==>
              && r.value.requestedDirectory == Some(RequestedDirectory(path.value))
              && r.value.parentDirectory == Some(Parent(path.value))
              && Join(r.value.parentDirectory.value, r.value.requestedDirectory.value) == path.value
  {
    var search := SearchPath(mapDirectory, path);
    var kept :- SafeReadDirectorySpecificFileTypesNormalised(mapDirectory, search, cwd, listing,
                                                             stat, DefaultExtensions);
    var split := SplitEntries(kept, search, stat);
    var fields := DirectoryFields(mapDirectory, path, cwd);
    Ok(SplitListView(split.0, split.1, fields.0, fields.1))
  }

  /** The kept entries of `search` split into files and directories, each in
      listing order, with nothing lost. */
  function SplitEntries(kept: seq<Path>, search: Path, stat: Path -> Stat): (r: (seq<Path>, seq<Path>))
    ensures Subsequence(r.0, kept) && Subsequence(r.1, kept)
    ensures |r.0| + |r.1| == |kept|
    ensures forall p :: p in r.0 <==> p in kept && !stat(Join(search, p)).isDir
    ensures forall p :: p in r.1 <==> p in kept && stat(Join(search, p)).isDir
  {
    var isFile := (p: Path) => !stat(Join(search, p)).isDir;
    var isDir := (p: Path) => stat(Join(search, p)).isDir;
    FilterComplement(kept, isFile, isDir);
    (Filter(kept, isFile), Filter(kept, isDir))
  }

  /** `evaluate`: the file below the map directory is read with the reader's
      default extensions. A missing path fails when it is joined, an OSError
      of the reader becomes HTTP 500, other errors pass through, and the view
      names the file by the request's last component. */
  function Evaluate(mapDirectory: Path, path: Option<Path>, evaluate: Evaluator): (r: Result<EvaluateView, Error>)
    ensures path.None? ==> r == Err(NoneOperand)
    ensures path.Some? ==>
              var read := evaluate(mapDirectory, Join(mapDirectory, path.value), None);
              && (read.Err? && read.error.OsError? ==> r == Err(Http(500, FitsErrorDetail)))
              && (read.Err? && !read.error.OsError? ==> r == Err(read.error))
              && (read.Ok? ==> r == Ok(EvaluateView(Name(path.value), read.value)))
    ensures r.Ok? ==> path.Some? && (|path.value.parts| > 0 ==> path.value.parts[|path.value.parts| - 1] == r.value.filename)
  {
    match path
    case None => Err(NoneOperand)
    case Some(p) =>
      match evaluate(mapDirectory, Join(mapDirectory, p), None)
      case Err(OsError(_)) => Err(Http(500, FitsErrorDetail))
      case Err(e) => Err(e)
      case Ok(layers) => Ok(EvaluateView(Name(p), layers))
  }

  /** A file the listing of request `q` offers can be previewed by requesting
      `q / name`: the reader is handed that entry below the searched directory,
      which is a world-readable regular file with a default extension, and the
      preview calls the file by the listed name. */
  lemma ListedFileEvaluates(mapDirectory: Path, q: Path, cwd: seq<string>, listing: Result<seq<string>, Error>,
                            stat: Path -> Stat, n: string, evaluate: Evaluator)
    requires GetListFixed(mapDirectory, Some(q), cwd, listing, stat).Ok?
    requires Leaf(n) in GetListFixed(mapDirectory, Some(q), cwd, listing, stat).value.files
    ensures var file := Join(SearchPath(mapDirectory, Some(q)), Leaf(n));
            && !stat(file).isDir && WorldReadable(stat(file).mode) && MatchesExtension(n, DefaultExtensions)
    ensures var read := evaluate(mapDirectory, Join(SearchPath(mapDirectory, Some(q)), Leaf(n)), None);
            var r := Evaluate(mapDirectory, Some(Join(q, Leaf(n))), evaluate);
            && (read.Ok? ==> r == Ok(EvaluateView(n, read.value)))
            && (read.Err? ==> r.Err?)
  {
    var search := SearchPath(mapDirectory, Some(q));
    var kept := SafeReadDirectorySpecificFileTypesNormalised(mapDirectory, search, cwd, listing,
                                                             stat, DefaultExtensions);
    assert Leaf(n) in kept.value && !stat(Join(search, Leaf(n))).isDir;
    assert Keep(search, stat, DefaultExtensions, Leaf(n));
    assert Name(Leaf(n)) == n;
    EntryEvaluates(mapDirectory, q, n, evaluate);
  }

  /** Requesting `q / name` reads the entry `name` of the directory request
      `q` searches, whatever `q` is. */
  lemma EntryEvaluates(mapDirectory: Path, q: Path, n: string, evaluate: Evaluator)
    ensures var read := evaluate(mapDirectory, Join(SearchPath(mapDirectory, Some(q)), Leaf(n)), None);
            var r := Evaluate(mapDirectory, Some(Join(q, Leaf(n))), evaluate);
            && (read.Ok? ==> r == Ok(EvaluateView(n, read.value)))
            && (read.Err? ==> r.Err?)
  {
    if !q.absolute {
      assert Join(mapDirectory, Join(q, Leaf(n))) == Join(Join(mapDirectory, q), Leaf(n)) by {
        assert mapDirectory.parts + (q.parts + [n]) == (mapDirectory.parts + q.parts) + [n];
      }
    }
  }
}

=== FILE: creation.dfy ===
/** Turning a submitted form into stored records (tileadder/service/creation.py).

    The data file is re-read through the reader oracle, its layers are indexed
    by `layer_id`, and every included form entry is joined with the geometry of
    the layer carrying its id. A failure anywhere leaves the store untouched:
    the functions return either an error or the whole new store. */
module Creation {
  import opened Wrappers
  import opened Errors
  import opened Paths
  import opened Seqs
  import opened Tables
  import opened Store
  import opened Reader
  import opened Existing

  /** One layer entry of the form (`LayerData`). */
  datatype LayerData = LayerData(layerId: string, included: bool,
                                 name: Option<string>, description: Option<string>,
                                 quantity: Option<string>, units: Option<string>,
                                 vmin: Bound, vmax: Bound, cmap: string)

  datatype BandFormData = BandFormData(bandId: string, name: string, description: Option<string>,
                                       requiredGrant: Option<string>, layers: seq<LayerData>, path: Path)

  datatype MapFormData = MapFormData(name: string, description: string, mapGroupId: int,
                                     requiredGrant: Option<string>, formData: BandFormData)

  datatype ExistingMapFormData = ExistingMapFormData(mapId: string, formData: BandFormData)

  /** What a caller may hand to `parse_existing_map_to_orm`: the parameter is
      declared as `MapFormData` but read as an `ExistingMapFormData`. */
  datatype SubmittedForm = NewMapSubmission(form: MapFormData)
                         | ExistingMapSubmission(existing: ExistingMapFormData)

  /** The result of a successful creation: the store after the commit and the
      key of the map returned to the caller. */
  datatype Committed = Committed(store: Store, mapKey: int)

  const DefaultCmap: string := "viridis"

  // ---------------------------------------------------------------------------
  // Validating one layer entry

  /** A raw JSON value of a submitted form field. */
  datatype FormValue = Null | Flag(b: bool) | Num(x: real) | Text(s: string)

  function RequiredText(fields: map<string, FormValue>, key: string): Result<string, Error> {
    if key in fields && fields[key].Text? then Ok(fields[key].s) else Err(InvalidField(key))
  }

  function RequiredFlag(fields: map<string, FormValue>, key: string): Result<bool, Error> {
    if key in fields && fields[key].Flag? then Ok(fields[key].b) else Err(InvalidField(key))
  }

  /** `str | None = None`. */
  function OptionalText(fields: map<string, FormValue>, key: string): Result<Option<string>, Error> {
    if key !in fields || fields[key].Null? then Ok(None)
    else if fields[key].Text? then Ok(Some(fields[key].s))
    else Err(InvalidField(key))
  }

  /** `float | Literal["auto"] = "auto"`. */
  function BoundField(fields: map<string, FormValue>, key: string): Result<Bound, Error> {
    if key !in fields || fields[key] == Text("auto") then Ok(Auto)
    else if fields[key].Num? then Ok(Value(fields[key].x))
    else Err(InvalidField(key))
  }

  /** `str = default`. */
  function TextWithDefault(fields: map<string, FormValue>, key: string, default: string): Result<string, Error> {
    if key !in fields then Ok(default)
    else if fields[key].Text? then Ok(fields[key].s)
    else Err(InvalidField(key))
  }

  /** `str | None`: absent or null is None, a string is kept. */
  ghost predicate OptionalTextKept(fields: map<string, FormValue>, key: string, v: Option<string>) {
    && (key !in fields || fields[key].Null? ==> v == None)
    && (key in fields && fields[key].Text? ==> v == Some(fields[key].s))
  }

  /** `float | Literal["auto"] = "auto"`: absent or "auto" is Auto, a number is kept. */
  ghost predicate BoundKept(fields: map<string, FormValue>, key: string, v: Bound) {
    && (key !in fields || fields[key] == Text("auto") ==> v == Auto)
    && (key in fields && fields[key].Num? ==> v == Value(fields[key].x))
  }

  /** Every field of a `LayerData` entry has one of the types it is declared with. */
  ghost predicate WellTypedLayer(fields: map<string, FormValue>) {
    && "layer_id" in fields && fields["layer_id"].Text?
    && "included" in fields && fields["included"].Flag?
    && (forall key :: key in ["name", "description", "quantity", "units"] && key in fields ==>
          fields[key].Null? || fields[key].Text?)
    && (forall key :: key in ["vmin", "vmax"] && key in fields ==>
          fields[key] == Text("auto") || fields[key].Num?)
    && ("cmap" in fields ==> fields["cmap"].Text?)
  }

  /** Validation of one `LayerData` entry: `layer_id` and `included` are
      required, the display bounds default to "auto" and the colour map to
      "viridis"; given values are kept, and fields the model does not know
      are ignored. */
  function ParseLayerData(fields: map<string, FormValue>): (r: Result<LayerData, Error>)
    ensures r.Ok? <==> WellTypedLayer(fields)
    ensures r.Ok? ==> Text(r.value.layerId) == fields["layer_id"] && Flag(r.value.included) == fields["included"]
    ensures r.Ok? ==> && OptionalTextKept(fields, "name", r.value.name)
                      && OptionalTextKept(fields, "description", r.value.description)
                      && OptionalTextKept(fields, "quantity", r.value.quantity)
                      && OptionalTextKept(fields, "units", r.value.units)
    ensures r.Ok? ==> BoundKept(fields, "vmin", r.value.vmin) && BoundKept(fields, "vmax", r.value.vmax)
    ensures r.Ok? ==> ("cmap" !in fields ==> r.value.cmap == DefaultCmap)
                      && ("cmap" in fields ==> Text(r.value.cmap) == fields["cmap"])
  {
    var layerId :- RequiredText(fields, "layer_id");
    var included :- RequiredFlag(fields, "included");
    var name :- OptionalText(fields, "name");
    var description :- OptionalText(fields, "description");
    var quantity :- OptionalText(fields, "quantity");
    var units :- OptionalText(fields, "units");
    var vmin :- BoundField(fields, "vmin");
    var vmax :- BoundField(fields, "vmax");
    var cmap :- TextWithDefault(fields, "cmap", DefaultCmap);
    Ok(LayerData(layerId, included, name, description, quantity, units, vmin, vmax, cmap))
  }

  function OptionalValue(v: Option<string>): FormValue {
    if v.None? then Null else Text(v.value)
  }

  function BoundValue(b: Bound): FormValue {
    if b.Auto? then Text("auto") else Num(b.x)
  }

  /** The JSON object a client sends for an entry: every field given explicitly. */
  function FieldsOf(d: LayerData): map<string, FormValue> {
    map["layer_id" := Text(d.layerId), "included" := Flag(d.included),
        "name" := OptionalValue(d.name), "description" := OptionalValue(d.description),
        "quantity" := OptionalValue(d.quantity), "units" := OptionalValue(d.units),
        "vmin" := BoundValue(d.vmin), "vmax" := BoundValue(d.vmax), "cmap" := Text(d.cmap)]
  }

  /** Every entry survives being sent as JSON and validated again. */
  lemma ParseLayerDataRoundTrip(d: LayerData)
    ensures ParseLayerData(FieldsOf(d)) == Ok(d)
  {
    var f := FieldsOf(d);
    assert RequiredText(f, "layer_id") == Ok(d.layerId);
    assert RequiredFlag(f, "included") == Ok(d.included);
    OptionalValueParses(f, "name", d.name);
    OptionalValueParses(f, "description", d.description);
    OptionalValueParses(f, "quantity", d.quantity);
    OptionalValueParses(f, "units", d.units);
    BoundValueParses(f, "vmin", d.vmin);
    BoundValueParses(f, "vmax", d.vmax);
    assert TextWithDefault(f, "cmap", DefaultCmap) == Ok(d.cmap);
  }

  lemma OptionalValueParses(f: map<string, FormValue>, key: string, v: Option<string>)
    requires key in f && f[key] == OptionalValue(v)
    ensures OptionalText(f, key) == Ok(v)
  {
  }

  lemma BoundValueParses(f: map<string, FormValue>, key: string, b: Bound)
    requires key in f && f[key] == BoundValue(b)
    ensures BoundField(f, key) == Ok(b)
  {
  }

  /** An entry giving only the two required fields takes every default. */
  lemma DefaultsOnly(layerId: string, included: bool)
    ensures ParseLayerData(map["layer_id" := Text(layerId), "included" := Flag(included)])
            == Ok(LayerData(layerId, included, None, None, None, None, Auto, Auto, DefaultCmap))
  {
  }

  // ---------------------------------------------------------------------------
  // Joining form entries with the layers of the file

  function Metadata(d: LayerDescriptor): Geometry {
    Geometry(d.provider, d.boundingLeft, d.boundingRight, d.boundingTop, d.boundingBottom,
             d.numberOfLevels, d.tileSize)
  }

  /** `ds[i]` is the last descriptor carrying its id. */
  ghost predicate LastWithId(ds: seq<LayerDescriptor>, i: int)
    requires 0 <= i < |ds|
  {
    forall j :: i < j < |ds| ==> ds[j].layerId != ds[i].layerId
  }

  /** The `layer_metadata` dictionary: keyed by layer id; when ids repeat, the
      later descriptor overwrites the earlier one. */
  function IndexDescriptors(ds: seq<LayerDescriptor>): (m: map<string, Geometry>)
    ensures forall id :: id in m <==> exists i :: 0 <= i < |ds| && ds[i].layerId == id
    ensures forall i :: 0 <= i < |ds| && LastWithId(ds, i) ==> m[ds[i].layerId] == Metadata(ds[i])
  {
    if ds == [] then map[]
    else
      var prefix := ds[..|ds| - 1];
      var earlier := IndexDescriptors(prefix);
      IndexStep(ds, prefix, earlier);
      earlier[ds[|ds| - 1].layerId := Metadata(ds[|ds| - 1])]
  }

  /** One step of the comprehension: if `earlier` indexes all descriptors but
      the final one, overwriting with the final one indexes them all. */
  lemma IndexStep(ds: seq<LayerDescriptor>, prefix: seq<LayerDescriptor>, earlier: map<string, Geometry>)
    requires |ds| > 0 && prefix == ds[..|ds| - 1]
    requires forall id :: id in earlier <==> exists i :: 0 <= i < |prefix| && prefix[i].layerId == id
    requires forall i :: 0 <= i < |prefix| && LastWithId(prefix, i) ==> earlier[prefix[i].layerId] == Metadata(prefix[i])
    ensures var m := earlier[ds[|ds| - 1].layerId := Metadata(ds[|ds| - 1])];
            && (forall id :: id in m <==> exists i :: 0 <= i < |ds| && ds[i].layerId == id)
            && (forall i :: 0 <= i < |ds| && LastWithId(ds, i) ==> m[ds[i].layerId] == Metadata(ds[i]))
  {
    IndexStepKeys(ds, prefix, earlier);
    var m := earlier[ds[|ds| - 1].layerId := Metadata(ds[|ds| - 1])];
    forall i | 0 <= i < |ds| && LastWithId(ds, i) ensures m[ds[i].layerId] == Metadata(ds[i]) {
      if i < |ds| - 1 {
        LastInPrefix(ds, i);
      }
    }
  }

  lemma IndexStepKeys(ds: seq<LayerDescriptor>, prefix: seq<LayerDescriptor>, earlier: map<string, Geometry>)
    requires |ds| > 0 && prefix == ds[..|ds| - 1]
    requires forall id :: id in earlier <==> exists i :: 0 <= i < |prefix| && prefix[i].layerId == id
    ensures var m := earlier[ds[|ds| - 1].layerId := Metadata(ds[|ds| - 1])];
            forall id :: id in m <==> exists i :: 0 <= i < |ds| && ds[i].layerId == id
  {
    var last := |ds| - 1;
    var m := earlier[ds[last].layerId := Metadata(ds[last])];
    forall id ensures id in m <==> exists i :: 0 <= i < |ds| && ds[i].layerId == id {
      if id in m && id != ds[last].layerId {
        var i :| 0 <= i < |prefix| && prefix[i].layerId == id;
        assert ds[i] == prefix[i];
      }
      if exists i :: 0 <= i < |ds| && ds[i].layerId == id {
        var i :| 0 <= i < |ds| && ds[i].layerId == id;
        if i < last {
          assert prefix[i] == ds[i];
        }
      }
    }
  }

  /** A descriptor that is last with its id in `ds`, other than the final one,
      is last with its id once the final one is dropped, and its id differs
      from the final one's. */
  lemma LastInPrefix(ds: seq<LayerDescriptor>, i: int)
    requires 0 <= i < |ds| - 1 && LastWithId(ds, i)
    ensures ds[i].layerId != ds[|ds| - 1].layerId
    ensures ds[..|ds| - 1][i] == ds[i] && LastWithId(ds[..|ds| - 1], i)
  {
    var prefix := ds[..|ds| - 1];
    forall j | i < j < |prefix| ensures prefix[j].layerId != prefix[i].layerId {
      assert prefix[j] == ds[j];
    }
  }

  /** Every key of the index belongs to the last descriptor with that id. */
  lemma IndexedByLast(ds: seq<LayerDescriptor>, id: string)
    requires id in IndexDescriptors(ds)
    ensures exists i :: 0 <= i < |ds| && ds[i].layerId == id && LastWithId(ds, i)
                        && IndexDescriptors(ds)[id] == Metadata(ds[i])
  {
    var i :| 0 <= i < |ds| && ds[i].layerId == id;
    while !LastWithId(ds, i)
      invariant 0 <= i < |ds| && ds[i].layerId == id
      decreases |ds| - i
    {
      var next :| i < next < |ds| && ds[next].layerId == ds[i].layerId;
      i := next;
    }
  }

  function Included(entries: seq<LayerData>): seq<LayerData> {
    Filter(entries, (e: LayerData) => e.included)
  }

  /** Every layer id the form carries, included or not (the error message lists them all). */
  function LayerIds(entries: seq<LayerData>): (r: seq<string>)
    ensures |r| == |entries| && forall i :: 0 <= i < |r| ==> r[i] == entries[i].layerId
  {
    seq(|entries|, i requires 0 <= i < |entries| => entries[i].layerId)
  }

  /** The `LayerORM` built from a form entry and the geometry of its layer. */
  ghost predicate Joined(l: LayerRec, e: LayerData, g: Geometry, grant: Option<string>) {
    && l.layerId == e.layerId && l.name == e.name && l.description == e.description
    && l.quantity == e.quantity && l.units == e.units
    && l.vmin == e.vmin && l.vmax == e.vmax && l.cmap == e.cmap
    && l.grant == grant && l.geometry == g
  }

  ghost predicate AllFound(entries: seq<LayerData>, meta: map<string, Geometry>) {
    forall i :: 0 <= i < |entries| && entries[i].included ==> entries[i].layerId in meta
  }

  function MakeLayer(e: LayerData, g: Geometry, grant: Option<string>): LayerRec {
    LayerRec(e.layerId, e.name, e.description, grant, e.quantity, e.units, e.vmin, e.vmax, e.cmap, g)
  }

  /** `ls` is `inc` joined, entry by entry, with the geometry `meta` holds for its id. */
  ghost predicate JoinedAll(ls: seq<LayerRec>, inc: seq<LayerData>, meta: map<string, Geometry>,
                            grant: Option<string>) {
    && |ls| == |inc|
    && forall k :: 0 <= k < |ls| ==>
         inc[k].layerId in meta && Joined(ls[k], inc[k], meta[inc[k].layerId], grant)
  }

  lemma IncludedCons(entries: seq<LayerData>)
    requires entries != []
    ensures Included(entries) == (if entries[0].included then [entries[0]] else []) + Included(entries[1..])
  {
  }

  lemma AllFoundCons(entries: seq<LayerData>, meta: map<string, Geometry>)
    requires entries != []
    ensures AllFound(entries, meta) <==>
            (entries[0].included ==> entries[0].layerId in meta) && AllFound(entries[1..], meta)
  {
    assert forall i :: 1 <= i < |entries| ==> entries[i] == entries[1..][i - 1];
  }

  lemma JoinedCons(l: LayerRec, e: LayerData, ls: seq<LayerRec>, inc: seq<LayerData>,
                   meta: map<string, Geometry>, grant: Option<string>)
    requires JoinedAll(ls, inc, meta, grant)
    requires e.layerId in meta && Joined(l, e, meta[e.layerId], grant)
    ensures JoinedAll([l] + ls, [e] + inc, meta, grant)
  {
    forall k | 0 < k < |ls| + 1
      ensures ([e] + inc)[k].layerId in meta && Joined(([l] + ls)[k], ([e] + inc)[k], meta[([e] + inc)[k].layerId], grant)
    {
      assert ([e] + inc)[k] == inc[k - 1];
      assert ([l] + ls)[k] == ls[k - 1];
    }
  }

  /** The layer list comprehension: one layer per included entry, in form
      order; `None` stands for the KeyError of an included entry whose id is
      missing. Excluded entries are skipped without a lookup. */
  function JoinLayers(entries: seq<LayerData>, meta: map<string, Geometry>, grant: Option<string>)
    : (r: Option<seq<LayerRec>>)
    ensures r.Some? <==> AllFound(entries, meta)
    ensures r.Some? ==> JoinedAll(r.value, Included(entries), meta, grant)
  {
    if entries == [] then Some([])
    else
      var e := entries[0];
      var rest := JoinLayers(entries[1..], meta, grant);
      AllFoundCons(entries, meta);
      IncludedCons(entries);
      if !e.included then rest
      else if e.layerId !in meta then None
      else if rest.None? then None
      else
        var l := MakeLayer(e, meta[e.layerId], grant);
        JoinedCons(l, e, rest.value, Included(entries[1..]), meta, grant);
        Some([l] + rest.value)
  }

  /** Only the ids of included entries are ever looked up: two indexes that
      agree on them give the same join. */
  lemma {:induction false} ExcludedNeverLookedUp(entries: seq<LayerData>, m1: map<string, Geometry>,
                                                 m2: map<string, Geometry>, grant: Option<string>)
    requires forall i :: 0 <= i < |entries| && entries[i].included ==>
               (entries[i].layerId in m1 <==> entries[i].layerId in m2) &&
               (entries[i].layerId in m1 ==> m1[entries[i].layerId] == m2[entries[i].layerId])
    ensures JoinLayers(entries, m1, grant) == JoinLayers(entries, m2, grant)
  {
    if entries != [] {
      assert forall i :: 1 <= i < |entries| ==> entries[i] == entries[1..][i - 1];
      ExcludedNeverLookedUp(entries[1..], m1, m2, grant);
    }
  }

  /** `form_data.band_id[2:]`. */
  function DropTwo(s: string): (r: string)
    ensures |s| >= 2 ==> s == s[..2] + r
    ensures |s| < 2 ==> r == ""
  {
    if |s| < 2 then "" else s[2..]
  }

  /** Every included entry names a layer the file contains. */
  ghost predicate AllInFile(entries: seq<LayerData>, ds: seq<LayerDescriptor>) {
    forall i :: 0 <= i < |entries| && entries[i].included ==>
      exists j :: 0 <= j < |ds| && ds[j].layerId == entries[i].layerId
  }

  /** `l` is `e` joined with the last layer of the file carrying `e`'s id. */
  ghost predicate FromLastInFile(l: LayerRec, e: LayerData, ds: seq<LayerDescriptor>, grant: Option<string>) {
    exists j :: 0 <= j < |ds| && LastWithId(ds, j) && ds[j].layerId == e.layerId
                && Joined(l, e, Metadata(ds[j]), grant)
  }

  /** Layer `k` of `ls` comes from entry `k` of `inc` and the file. */
  ghost predicate FromFile(ls: seq<LayerRec>, inc: seq<LayerData>, ds: seq<LayerDescriptor>, grant: Option<string>) {
    && |ls| == |inc|
    && forall k :: 0 <= k < |ls| ==> FromLastInFile(ls[k], inc[k], ds, grant)
  }

  lemma AllFoundInFile(entries: seq<LayerData>, ds: seq<LayerDescriptor>)
    ensures AllFound(entries, IndexDescriptors(ds)) <==> AllInFile(entries, ds)
  {
  }

  lemma JoinedFromFile(ls: seq<LayerRec>, inc: seq<LayerData>, ds: seq<LayerDescriptor>, grant: Option<string>)
    requires JoinedAll(ls, inc, IndexDescriptors(ds), grant)
    ensures FromFile(ls, inc, ds, grant)
  {
    forall k | 0 <= k < |ls|
      ensures FromLastInFile(ls[k], inc[k], ds, grant)
    {
      var meta := IndexDescriptors(ds);
      IndexedByLast(ds, inc[k].layerId);
      var j :| 0 <= j < |ds| && ds[j].layerId == inc[k].layerId && LastWithId(ds, j)
               && meta[inc[k].layerId] == Metadata(ds[j]);
      assert Joined(ls[k], inc[k], Metadata(ds[j]), grant);
    }
  }

  /** Everything `parse_map_form_to_orm` does after the file has been read:
      element 0 must exist, every included entry must find its layer, and the
      result is a map holding one band holding the joined layers. */
  function BuildMap(form: MapFormData, ds: seq<LayerDescriptor>): (r: Result<NewMap, Error>)
    ensures |ds| == 0 ==> r == Err(IndexOutOfRange)
    ensures |ds| > 0 ==> (r.Ok? <==> AllInFile(form.formData.layers, ds))
    ensures |ds| > 0 && r.Err? ==>
              r.error == LayersNotFound(LayerIds(form.formData.layers), form.formData.path)
    ensures r.Ok? ==>
              var m := r.value;
              && m.mapId == DropTwo(form.formData.bandId)
              && m.name == form.name && m.description == Some(form.description)
              && m.grant == form.requiredGrant && m.mapGroupId == form.mapGroupId
              && m.band.bandId == form.formData.bandId && m.band.name == form.formData.name
              && m.band.description == form.formData.description
              && m.band.grant == form.formData.requiredGrant
              && FromFile(m.band.layers, Included(form.formData.layers), ds, form.formData.requiredGrant)
  {
    if |ds| == 0 then Err(IndexOutOfRange)
    else
      var meta := IndexDescriptors(ds);
      AllFoundInFile(form.formData.layers, ds);
      match JoinLayers(form.formData.layers, meta, form.formData.requiredGrant)
      case None => Err(LayersNotFound(LayerIds(form.formData.layers), form.formData.path))
      case Some(layers) =>
        JoinedFromFile(layers, Included(form.formData.layers), ds, form.formData.requiredGrant);
        var band := NewBand(form.formData.bandId, form.formData.name, form.formData.description,
                            form.formData.requiredGrant, layers);
        Ok(NewMap(DropTwo(form.formData.bandId), form.name, Some(form.description),
                  form.requiredGrant, form.mapGroupId, band))
  }

  /** A file with layers "layer-0-a" and "layer-0-b", and a form including
      only the first with colour map "plasma": the band gets one layer, with
      that colour map and the geometry of "layer-0-a"; "layer-0-b" gets none. */
  lemma OnlyIncludedLayerStored(form: MapFormData, a: LayerDescriptor, b: LayerDescriptor)
    requires a.layerId == "layer-0-a" && b.layerId == "layer-0-b"
    requires |form.formData.layers| == 2
    requires form.formData.layers[0].layerId == "layer-0-a" && form.formData.layers[0].included
    requires form.formData.layers[0].cmap == "plasma"
    requires form.formData.layers[1].layerId == "layer-0-b" && !form.formData.layers[1].included
    ensures BuildMap(form, [a, b]).Ok?
    ensures var layers := BuildMap(form, [a, b]).value.band.layers;
            && |layers| == 1
            && layers[0].layerId == "layer-0-a" && layers[0].cmap == "plasma"
            && layers[0].geometry == Metadata(a)
  {
    var entries := form.formData.layers;
    assert "layer-0-a" != "layer-0-b" by { assert "layer-0-a"[8] != "layer-0-b"[8]; }
    assert Included(entries) == [entries[0]] by {
      IncludedCons(entries);
      IncludedCons(entries[1..]);
      assert entries[1..][1..] == [];
    }
    assert AllInFile(entries, [a, b]) by {
      assert [a, b][0].layerId == entries[0].layerId;
    }
    var layers := BuildMap(form, [a, b]).value.band.layers;
    assert FromLastInFile(layers[0], entries[0], [a, b], form.formData.requiredGrant);
    var j :| 0 <= j < 2 && LastWithId([a, b], j) && [a, b][j].layerId == entries[0].layerId
             && Joined(layers[0], entries[0], Metadata([a, b][j]), form.formData.requiredGrant);
    assert j == 0;
  }

  /** `parse_map_form_to_orm`: read the file again, build the map and store it
      in one commit. Errors of the reader come through unchanged; on any error
      nothing is stored. */
  function ParseMapFormToOrm(s: Store, form: MapFormData, topLevel: Path, extensions: seq<string>,
                             evaluate: Evaluator): (r: Result<Committed, Error>)
    ensures var read := evaluate(topLevel, Join(topLevel, form.formData.path), Some(extensions));
            && (read.Err? ==> r == Err(read.error))
            && (read.Ok? ==> (r.Ok? <==> BuildMap(form, read.value).Ok?))
            && (read.Ok? && r.Err? ==> r.error == BuildMap(form, read.value).error)
            && (r.Ok? ==> r.value == Committed(InsertMap(s, BuildMap(form, read.value).value), s.nextId))
    ensures r.Ok? && Valid(s) ==> Valid(r.value.store)
  {
    var ds :- evaluate(topLevel, Join(topLevel, form.formData.path), Some(extensions));
    var m :- BuildMap(form, ds);
    Ok(Committed(InsertMap(s, m), s.nextId))
  }

  // ---------------------------------------------------------------------------
  // Adding layers to an existing map

  /** `select(MapORM).where(MapORM.map_id == mapId)`. */
  function MapsWithId(s: Store, mapId: string): Table<MapRec> {
    Where(s.maps, (m: MapRec) => m.mapId == mapId)
  }

  /** `select(BandORM).where(BandORM.name == name)`: across every map. */
  function BandsNamed(s: Store, name: string): Table<BandRec> {
    Where(s.bands, (b: BandRec) => b.name == name)
  }

  /** `safe_evaluate` of the form's file below the top level. */
  function ReadForm(f: BandFormData, topLevel: Path, extensions: seq<string>, evaluate: Evaluator)
    : Result<seq<LayerDescriptor>, Error>
  {
    evaluate(topLevel, Join(topLevel, f.path), Some(extensions))
  }

  /** `t` is `s` with layers built from the file appended to band `bandKey`. */
  ghost predicate AppendedFromFile(s: Store, t: Store, bandKey: int, inc: seq<LayerData>,
                                   ds: seq<LayerDescriptor>, grant: Option<string>) {
    exists ls :: FromFile(ls, inc, ds, grant) && t == AppendLayers(s, bandKey, ls)
  }

  /** The tail of `parse_existing_map_to_orm` once the band is known: element 0
      of the file must exist and every included entry must find its layer; the
      new layers carry the band's grant and go after the band's own layers. */
  function AppendFromFile(s: Store, band: Row<BandRec>, f: BandFormData, ds: seq<LayerDescriptor>)
    : (r: Result<Store, Error>)
    ensures |ds| == 0 ==> r == Err(IndexOutOfRange)
    ensures |ds| > 0 ==> (r.Ok? <==> AllInFile(f.layers, ds))
    ensures |ds| > 0 && r.Err? ==> r.error == LayersNotFound(LayerIds(f.layers), f.path)
    ensures r.Ok? ==> AppendedFromFile(s, r.value, band.id, Included(f.layers), ds, band.rec.grant)
    ensures r.Ok? && Valid(s) ==> Valid(r.value)
  {
    if |ds| == 0 then Err(IndexOutOfRange)
    else
      AllFoundInFile(f.layers, ds);
      match JoinLayers(f.layers, IndexDescriptors(ds), band.rec.grant)
      case None => Err(LayersNotFound(LayerIds(f.layers), f.path))
      case Some(layers) =>
        JoinedFromFile(layers, Included(f.layers), ds, band.rec.grant);
        Ok(AppendLayers(s, band.id, layers))
  }

  /** `parse_existing_map_to_orm` as written. The map is looked up by
      `form.map_id`, which a `MapFormData` does not have; the band is looked up
      by name across all maps; when no band has that name the code reads the
      local `layers` before assigning it; otherwise the joined layers are
      appended to the band found. */
  function ParseExistingMapToOrm(s: Store, form: SubmittedForm, topLevel: Path, extensions: seq<string>,
                                 evaluate: Evaluator): (r: Result<Committed, Error>)
    ensures form.NewMapSubmission? ==> r == Err(MissingAttribute("map_id"))
    ensures form.ExistingMapSubmission? ==>
              var f := form.existing;
              var maps := MapsWithId(s, f.mapId);
              var bands := BandsNamed(s, f.formData.name);
              && (maps == [] ==> r == Err(MapIdNotFound(f.mapId)))
              && (|maps| > 1 ==> r == Err(MultipleResultsFound))
              && (|maps| == 1 && |bands| > 1 ==> r == Err(MultipleResultsFound))
              && (|maps| == 1 && bands == [] ==> r == Err(UnboundLocal("layers")))
    ensures form.ExistingMapSubmission? && |MapsWithId(s, form.existing.mapId)| == 1
            && |BandsNamed(s, form.existing.formData.name)| == 1 ==>
              var f := form.existing;
              var band := BandsNamed(s, f.formData.name)[0];
              var read := ReadForm(f.formData, topLevel, extensions, evaluate);
              && (read.Err? ==> r == Err(read.error))
              && (read.Ok? ==> (r.Ok? <==> AppendFromFile(s, band, f.formData, read.value).Ok?))
              && (read.Ok? && r.Err? ==> r.error == AppendFromFile(s, band, f.formData, read.value).error)
              && (r.Ok? ==>
                    && r.value.mapKey == MapsWithId(s, f.mapId)[0].id
                    && AppendedFromFile(s, r.value.store, band.id, Included(f.formData.layers),
                                        read.value, band.rec.grant))
  {
    match form
    case NewMapSubmission(_) => Err(MissingAttribute("map_id"))
    case ExistingMapSubmission(f) =>
      var found :- OneOrNone(MapsWithId(s, f.mapId));
      if found.None? then Err(MapIdNotFound(f.mapId))
      else
        var band :- OneOrNone(BandsNamed(s, f.formData.name));
        if band.None? then Err(UnboundLocal("layers"))
        else
          var ds :- ReadForm(f.formData, topLevel, extensions, evaluate);
          var t :- AppendFromFile(s, band.value, f.formData, ds);
          Ok(Committed(t, found.value.id))
  }

  /** What appending layers from the file leaves alone and what it adds: groups
      and maps stay, every other band stays, and the band keeps its own layers
      first, followed by one layer per included entry. */
  lemma AppendedKeepsTheRest(s: Store, t: Store, bandKey: int, inc: seq<LayerData>,
                             ds: seq<LayerDescriptor>, grant: Option<string>)
    requires AppendedFromFile(s, t, bandKey, inc, ds, grant)
    ensures t.groups == s.groups && t.maps == s.maps && |t.bands| == |s.bands|
    ensures forall i :: 0 <= i < |s.bands| && s.bands[i].id != bandKey ==> t.bands[i] == s.bands[i]
    ensures forall i :: 0 <= i < |s.bands| && s.bands[i].id == bandKey ==>
              exists ls :: FromFile(ls, inc, ds, grant)
                           && Recs(t.bands[i].rec.layers) == Recs(s.bands[i].rec.layers) + ls
  {
    var ls :| FromFile(ls, inc, ds, grant) && t == AppendLayers(s, bandKey, ls);
    forall i | 0 <= i < |s.bands| && s.bands[i].id == bandKey
      ensures exists ls :: FromFile(ls, inc, ds, grant)
                           && Recs(t.bands[i].rec.layers) == Recs(s.bands[i].rec.layers) + ls
    {
      assert Recs(t.bands[i].rec.layers) == Recs(s.bands[i].rec.layers) + ls;
    }
  }

  /** The band `parse_existing_map_to_orm` evidently meant to create when no
      band has the form's name: owned by map `mapKey`, carrying the form's
      grant, holding one layer per included entry. */
  function InsertBandFromFile(s: Store, mapKey: int, f: BandFormData, ds: seq<LayerDescriptor>)
    : (r: Result<Store, Error>)
    ensures |ds| == 0 ==> r == Err(IndexOutOfRange)
    ensures |ds| > 0 ==> (r.Ok? <==> AllInFile(f.layers, ds))
    ensures |ds| > 0 && r.Err? ==> r.error == LayersNotFound(LayerIds(f.layers), f.path)
    ensures r.Ok? ==>
              && r.value.groups == s.groups && r.value.maps == s.maps
              && |r.value.bands| == |s.bands| + 1 && r.value.bands[..|s.bands|] == s.bands
              && var b := r.value.bands[|s.bands|].rec;
                 && b.bandId == f.bandId && b.name == f.name && b.description == f.description
                 && b.grant == f.requiredGrant && b.mapRef == mapKey
                 && FromFile(Recs(b.layers), Included(f.layers), ds, f.requiredGrant)
    ensures r.Ok? && Valid(s) && mapKey < s.nextId ==> Valid(r.value)
  {
    if |ds| == 0 then Err(IndexOutOfRange)
    else
      AllFoundInFile(f.layers, ds);
      match JoinLayers(f.layers, IndexDescriptors(ds), f.requiredGrant)
      case None => Err(LayersNotFound(LayerIds(f.layers), f.path))
      case Some(layers) =>
        JoinedFromFile(layers, Included(f.layers), ds, f.requiredGrant);
        Ok(InsertBand(s, NewBand(f.bandId, f.name, f.description, f.requiredGrant, layers), mapKey))
  }

  /** `parse_existing_map_to_orm` as evidently intended: the form is an
      `ExistingMapFormData`, and a band that does not exist yet is created
      under the map with the layers from the file. Lookups happen in the same
      order, so the same errors come first. */
  function ParseExistingMapToOrmFixed(s: Store, f: ExistingMapFormData, topLevel: Path,
                                      extensions: seq<string>, evaluate: Evaluator)
    : (r: Result<Committed, Error>)
    ensures var maps := MapsWithId(s, f.mapId);
            var bands := BandsNamed(s, f.formData.name);
            && (maps == [] ==> r == Err(MapIdNotFound(f.mapId)))
            && (|maps| > 1 ==> r == Err(MultipleResultsFound))
            && (|maps| == 1 && |bands| > 1 ==> r == Err(MultipleResultsFound))
            && (r.Ok? ==> |maps| == 1 && |bands| <= 1 && r.value.mapKey == maps[0].id)
    ensures |MapsWithId(s, f.mapId)| == 1 && |BandsNamed(s, f.formData.name)| <= 1 ==>
              var read := ReadForm(f.formData, topLevel, extensions, evaluate);
              && (read.Err? ==> r == Err(read.error))
              && (read.Ok? && |read.value| == 0 ==> r == Err(IndexOutOfRange))
              && (read.Ok? && |read.value| > 0 ==> (r.Ok? <==> AllInFile(f.formData.layers, read.value)))
              && (read.Ok? && |read.value| > 0 && r.Err? ==>
                    r.error == LayersNotFound(LayerIds(f.formData.layers), f.formData.path))
    ensures r.Ok? && BandsNamed(s, f.formData.name) != [] ==>
              var band := BandsNamed(s, f.formData.name)[0];
              AppendedFromFile(s, r.value.store, band.id, Included(f.formData.layers),
                               ReadForm(f.formData, topLevel, extensions, evaluate).value, band.rec.grant)
    ensures r.Ok? && BandsNamed(s, f.formData.name) == [] ==>
              r.value.store == InsertBandFromFile(s, MapsWithId(s, f.mapId)[0].id, f.formData,
                                                  ReadForm(f.formData, topLevel, extensions, evaluate).value).value
    ensures r.Ok? && Valid(s) ==> Valid(r.value.store)
  {
    var found :- OneOrNone(MapsWithId(s, f.mapId));
    if found.None? then Err(MapIdNotFound(f.mapId))
    else
      var band :- OneOrNone(BandsNamed(s, f.formData.name));
      var ds :- ReadForm(f.formData, topLevel, extensions, evaluate);
      assert found.value in s.maps;
      if band.Some? then
        var t :- AppendFromFile(s, band.value, f.formData, ds);
        Ok(Committed(t, found.value.id))
      else
        var t :- InsertBandFromFile(s, found.value.id, f.formData, ds);
        Ok(Committed(t, found.value.id))
  }

  /** Whenever the map exists and no band has the form's name, the code as
      written fails, so no band is ever created; the corrected version
      succeeds exactly when every included entry finds its layer. */
  lemma NewBandNeverCreated(s: Store, f: ExistingMapFormData, topLevel: Path,
                            extensions: seq<string>, evaluate: Evaluator)
    requires |MapsWithId(s, f.mapId)| == 1 && BandsNamed(s, f.formData.name) == []
    requires ReadForm(f.formData, topLevel, extensions, evaluate).Ok?
    requires |ReadForm(f.formData, topLevel, extensions, evaluate).value| > 0
    requires AllInFile(f.formData.layers, ReadForm(f.formData, topLevel, extensions, evaluate).value)
    ensures ParseExistingMapToOrm(s, ExistingMapSubmission(f), topLevel, extensions, evaluate)
            == Err(UnboundLocal("layers"))
    ensures ParseExistingMapToOrmFixed(s, f, topLevel, extensions, evaluate).Ok?
  {
  }

  /** `create_map_group`: the group is stored with the given fields under a
      fresh key, and reading that key gives it back. */
  function CreateMapGroup(s: Store, name: string, description: string, grant: Option<string>)
    : (r: (Store, MapGroupItem))
    ensures Valid(s) ==> Valid(r.0) && r.1.id !in Ids(s.groups)
    ensures r.0.groups == s.groups + [Row(r.1.id, MapGroupRec(name, Some(description), grant))]
    ensures r.0.maps == s.maps && r.0.bands == s.bands
    ensures Valid(s) ==> ReadMapGroup(r.0, r.1.id) == Ok(r.1)
    ensures r.1.name == name && r.1.grant == grant
    ensures ReadMapGroups(r.0) == ReadMapGroups(s) + [r.1]
  {
    var (t, key) := InsertGroup(s, MapGroupRec(name, Some(description), grant));
    assert t.groups[|s.groups|] == Row(key, MapGroupRec(name, Some(description), grant));
    assert Valid(s) ==> Get(t.groups, key) == Some(MapGroupRec(name, Some(description), grant));
    (t, GroupItem(Row(key, MapGroupRec(name, Some(description), grant))))
  }

  /** A map created from a form reads back by the returned key with the
      form's map fields and the trimmed band id. */
  lemma CreatedMapReadsBack(s: Store, form: MapFormData, topLevel: Path, extensions: seq<string>,
                            evaluate: Evaluator)
    requires Valid(s)
    requires ParseMapFormToOrm(s, form, topLevel, extensions, evaluate).Ok?
    ensures var c := ParseMapFormToOrm(s, form, topLevel, extensions, evaluate).value;
            ReadMap(c.store, c.mapKey)
            == Ok(MapItem(form.name, c.mapKey, DropTwo(form.formData.bandId), form.mapGroupId,
                          Some(form.description), form.requiredGrant))
  {
    var c := ParseMapFormToOrm(s, form, topLevel, extensions, evaluate).value;
    var t := c.store;
    assert t.maps[|s.maps|].id == c.mapKey;
    assert c.mapKey !in Ids(s.maps);
    assert UniqueIds(t.maps);
  }
}

=== FILE: errors.dfy ===
/** The exceptions the modelled code raises or lets through, one constructor
    per distinct failure a caller can observe. */
module Errors {
  import opened Paths

  datatype Error =
      /** ValueError: the requested directory is not below the sandbox root. */
    | PathTraversal(requested: Path, root: Path)
      /** OSError raised by the filesystem or by the data-file reader. */
    | OsError(reason: string)
      /** Any other failure the data-file reader reports (rejected extension, ...). */
    | ReaderRejected(reason: string)
      /** IndexError: element 0 of an empty list. */
    | IndexOutOfRange
      /** ValueError: included form layers whose ids the file does not contain;
          carries every layer id of the form and the form's file, as the message does. */
    | LayersNotFound(layerIds: seq<string>, file: Path)
      /** ValueError: no row of the named table has that integer id. */
    | IdNotFound(table: string, id: int)
      /** ValueError: no map has that textual `map_id`. */
    | MapIdNotFound(mapId: string)
      /** `scalar_one_or_none` saw more than one row. */
    | MultipleResultsFound
      /** AttributeError: the object has no attribute of that name. */
    | MissingAttribute(attribute: string)
      /** UnboundLocalError: a local variable read before its assignment. */
    | UnboundLocal(variable: string)
      /** `session.delete(None)`: the instance is not mapped. */
    | UnmappedInstance
      /** ValueError while unpacking a list into a fixed number of names. */
    | UnpackMismatch(expected: nat, got: nat)
      /** TypeError: an operator applied to None. */
    | NoneOperand
      /** A form field that is missing or of the wrong type. */
    | InvalidField(field: string)
      /** HTTPException raised by a route handler. */
    | Http(status: int, detail: string)
}

=== FILE: existing.dfy ===
/** Reading, editing and deleting what is already stored
    (tileadder/service/existing.py). Reads return flat projections of rows;
    updates and deletes return the new store or the exception raised. */
module Existing {
  import opened Wrappers
  import opened Errors
  import opened Seqs
  import opened Tables
  import opened Store

  datatype MapGroupItem = MapGroupItem(name: string, id: int, grant: Option<string>)

  datatype MapItem = MapItem(name: string, id: int, mapId: string, mapGroupId: int,
                             description: Option<string>, grant: Option<string>)

  datatype LayerItem = LayerItem(name: Option<string>, id: int, layerId: string, bandRef: int,
                                 description: Option<string>, grant: Option<string>,
                                 quantity: Option<string>, units: Option<string>,
                                 numberOfLevels: int, tileSize: int)

  datatype BandItem = BandItem(name: string, id: int, bandId: string, mapRef: int,
                               description: Option<string>, grant: Option<string>,
                               layers: seq<LayerItem>)

  datatype MapGroupEdit = MapGroupEdit(groupName: string, description: Option<string>, grant: Option<string>)

  datatype MapEdit = MapEdit(mapName: string, description: Option<string>, grant: Option<string>)

  function GroupItem(row: Row<MapGroupRec>): MapGroupItem {
    MapGroupItem(row.rec.name, row.id, row.rec.grant)
  }

  function MapItemOf(row: Row<MapRec>): MapItem {
    MapItem(row.rec.name, row.id, row.rec.mapId, row.rec.mapGroupId, row.rec.description, row.rec.grant)
  }

  /** A layer projection copies the layer's own fields, its key, and the
      levels and tile size of its geometry, and names the band it belongs to. */
  function LayerItemOf(bandKey: int, row: Row<LayerRec>): (r: LayerItem)
    ensures r.id == row.id && r.bandRef == bandKey && r.layerId == row.rec.layerId
    ensures r.name == row.rec.name && r.description == row.rec.description && r.grant == row.rec.grant
    ensures r.quantity == row.rec.quantity && r.units == row.rec.units
    ensures r.numberOfLevels == row.rec.geometry.numberOfLevels && r.tileSize == row.rec.geometry.tileSize
  {
    LayerItem(row.rec.name, row.id, row.rec.layerId, bandKey, row.rec.description, row.rec.grant,
              row.rec.quantity, row.rec.units, row.rec.geometry.numberOfLevels, row.rec.geometry.tileSize)
  }

  /** A band with its layers: one layer projection per stored layer, in
      relationship order, each naming the band it belongs to. */
  function BandItemOf(row: Row<BandRec>): (r: BandItem)
    ensures r.id == row.id && r.mapRef == row.rec.mapRef
    ensures r.name == row.rec.name && r.bandId == row.rec.bandId
    ensures r.description == row.rec.description && r.grant == row.rec.grant
    ensures |r.layers| == |row.rec.layers|
    ensures forall k :: 0 <= k < |r.layers| ==> r.layers[k] == LayerItemOf(row.id, row.rec.layers[k])
  {
    var layers := row.rec.layers;
    BandItem(row.rec.name, row.id, row.rec.bandId, row.rec.mapRef, row.rec.description, row.rec.grant,
             seq(|layers|, k requires 0 <= k < |layers| => LayerItemOf(row.id, layers[k])))
  }

  /** `read_map_groups`: one (name, id, grant) projection per stored group, in table order. */
  function ReadMapGroups(s: Store): (r: seq<MapGroupItem>)
    ensures |r| == |s.groups|
    ensures forall i :: 0 <= i < |r| ==>
              r[i].id == s.groups[i].id && r[i].name == s.groups[i].rec.name && r[i].grant == s.groups[i].rec.grant
  {
    seq(|s.groups|, i requires 0 <= i < |s.groups| => GroupItem(s.groups[i]))
  }

  /** `read_map_group`: the group with key `id`, or ValueError. */
  function ReadMapGroup(s: Store, id: int): (r: Result<MapGroupItem, Error>)
    ensures r.Err? <==> id !in Ids(s.groups)
    ensures r.Err? ==> r.error == IdNotFound("map group", id)
    ensures r.Ok? ==> r.value.id == id && exists i :: 0 <= i < |s.groups| && s.groups[i] == Row(id, s.groups[i].rec)
                                                   && r.value.name == s.groups[i].rec.name
                                                   && r.value.grant == s.groups[i].rec.grant
  {
    match Get(s.groups, id)
    case None => Err(IdNotFound("map group", id))
    case Some(g) => Ok(GroupItem(Row(id, g)))
  }

  /** Reading one group agrees with the full listing. */
  lemma ReadMapGroupInListing(s: Store, id: int)
    requires UniqueIds(s.groups)
    ensures ReadMapGroup(s, id).Ok? <==> exists g :: g in ReadMapGroups(s) && g.id == id
    ensures ReadMapGroup(s, id).Ok? ==> ReadMapGroup(s, id).value in ReadMapGroups(s)
  {
    var all := ReadMapGroups(s);
    if ReadMapGroup(s, id).Ok? {
      var i :| 0 <= i < |s.groups| && s.groups[i].id == id;
      assert all[i] == ReadMapGroup(s, id).value;
    } else {
      forall g | g in all ensures g.id != id {
        var i :| 0 <= i < |all| && all[i] == g;
        assert s.groups[i].id in Ids(s.groups);
      }
    }
  }

  /** Every map, projected, in table order. */
  function AllMapItems(s: Store): (r: seq<MapItem>)
    ensures |r| == |s.maps|
    ensures forall i :: 0 <= i < |r| ==> r[i] == MapItemOf(s.maps[i])
  {
    seq(|s.maps|, i requires 0 <= i < |s.maps| => MapItemOf(s.maps[i]))
  }

  /** `read_maps_for_map_group`: exactly the maps of group `groupId`, in table
      order, with their fields copied unchanged. */
  function ReadMapsForMapGroup(s: Store, groupId: int): (r: seq<MapItem>)
    ensures Subsequence(r, AllMapItems(s))
    ensures forall i :: 0 <= i < |r| ==> r[i].mapGroupId == groupId
    ensures forall i :: 0 <= i < |s.maps| && s.maps[i].rec.mapGroupId == groupId ==>
              MapItemOf(s.maps[i]) in r
    ensures forall m :: m in r ==> exists i :: 0 <= i < |s.maps| && m == MapItemOf(s.maps[i])
  {
    var r := Filter(AllMapItems(s), (m: MapItem) => m.mapGroupId == groupId);
    assert forall i :: 0 <= i < |s.maps| ==> MapItemOf(s.maps[i]) == AllMapItems(s)[i];
    r
  }

  /** `read_map`: the map with key `id`, or ValueError. */
  function ReadMap(s: Store, id: int): (r: Result<MapItem, Error>)
    ensures r.Err? <==> id !in Ids(s.maps)
    ensures r.Err? ==> r.error == IdNotFound("map", id)
    ensures r.Ok? ==> r.value.id == id && Row(id, MapRec(r.value.mapId, r.value.name, r.value.description,
                                                          r.value.grant, r.value.mapGroupId)) in s.maps
  {
    match Get(s.maps, id)
    case None => Err(IdNotFound("map", id))
    case Some(m) => Ok(MapItemOf(Row(id, m)))
  }

  /** Every map the group listing reports can be read back by its key, unchanged. */
  lemma ListedMapsReadBack(s: Store, groupId: int, m: MapItem)
    requires UniqueIds(s.maps)
    requires m in ReadMapsForMapGroup(s, groupId)
    ensures ReadMap(s, m.id) == Ok(m)
  {
    var i :| 0 <= i < |s.maps| && m == MapItemOf(s.maps[i]);
    assert s.maps[i].id in Ids(s.maps);
  }

  /** Every band, projected with its layers, in table order. */
  function AllBandItems(s: Store): (r: seq<BandItem>)
    ensures |r| == |s.bands|
    ensures forall i :: 0 <= i < |r| ==> r[i] == BandItemOf(s.bands[i])
  {
    seq(|s.bands|, i requires 0 <= i < |s.bands| => BandItemOf(s.bands[i]))
  }

  /** `read_bands_for_map`: exactly the bands of map `mapKey`, in table order,
      each with its layers. */
  function ReadBandsForMap(s: Store, mapKey: int): (r: seq<BandItem>)
    ensures Subsequence(r, AllBandItems(s))
    ensures forall i :: 0 <= i < |r| ==> r[i].mapRef == mapKey
    ensures forall i :: 0 <= i < |s.bands| && s.bands[i].rec.mapRef == mapKey ==>
              BandItemOf(s.bands[i]) in r
    ensures forall b :: b in r ==> exists i :: 0 <= i < |s.bands| && b == BandItemOf(s.bands[i])
  {
    var r := Filter(AllBandItems(s), (b: BandItem) => b.mapRef == mapKey);
    assert forall i :: 0 <= i < |s.bands| ==> BandItemOf(s.bands[i]) == AllBandItems(s)[i];
    r
  }

  /** `update_map_group`: name, description and grant of that group are
      replaced; other groups, all maps and all bands are untouched. A missing
      group fails on the attribute assignment to None. */
  function UpdateMapGroup(s: Store, id: int, edit: MapGroupEdit): (r: Result<Store, Error>)
    ensures r.Err? <==> id !in Ids(s.groups)
    ensures r.Err? ==> r.error == MissingAttribute("name")
    ensures r.Ok? ==>
              && r.value.maps == s.maps && r.value.bands == s.bands && r.value.nextId == s.nextId
              && |r.value.groups| == |s.groups|
              && (forall i :: 0 <= i < |s.groups| && s.groups[i].id != id ==> r.value.groups[i] == s.groups[i])
              && (forall i :: 0 <= i < |s.groups| && s.groups[i].id == id ==>
                    r.value.groups[i] == Row(id, MapGroupRec(edit.groupName, edit.description, edit.grant)))
    ensures r.Ok? && Valid(s) ==> Valid(r.value)
  {
    match Get(s.groups, id)
    case None => Err(MissingAttribute("name"))
    case Some(_) =>
      var r := s.(groups := Update(s.groups, id,
                                   (g: MapGroupRec) => MapGroupRec(edit.groupName, edit.description, edit.grant)));
      assert forall i, j :: 0 <= i < |s.groups| && 0 <= j < |s.groups| ==>
        (r.groups[i].id == r.groups[j].id <==> s.groups[i].id == s.groups[j].id);
      Ok(r)
  }

  /** A layer carrying `grant`, nothing else changed. */
  function WithGrant(row: Row<LayerRec>, grant: Option<string>): Row<LayerRec> {
    Row(row.id, row.rec.(grant := grant))
  }

  /** The band after `update_map` set its grant and the grant of all its layers. */
  function RegrantBand(row: Row<BandRec>, grant: Option<string>): (r: Row<BandRec>)
    ensures r.id == row.id && r.rec.grant == grant
    ensures r.rec == row.rec.(grant := grant, layers := r.rec.layers)
    ensures |r.rec.layers| == |row.rec.layers|
    ensures forall k :: 0 <= k < |row.rec.layers| ==>
              r.rec.layers[k].id == row.rec.layers[k].id &&
              r.rec.layers[k].rec == row.rec.layers[k].rec.(grant := grant)
  {
    var layers := row.rec.layers;
    Row(row.id, row.rec.(grant := grant,
                         layers := seq(|layers|, k requires 0 <= k < |layers| => WithGrant(layers[k], grant))))
  }

  /** `update_map`: name, description and grant of that map are replaced and
      the new grant is pushed down to every band of the map and every layer of
      those bands; all other rows are untouched. */
  function UpdateMap(s: Store, id: int, edit: MapEdit): (r: Result<Store, Error>)
    ensures r.Err? <==> id !in Ids(s.maps)
    ensures r.Err? ==> r.error == MissingAttribute("name")
    ensures r.Ok? ==>
              && r.value.groups == s.groups && r.value.nextId == s.nextId
              && |r.value.maps| == |s.maps| && |r.value.bands| == |s.bands|
              && (forall i :: 0 <= i < |s.maps| && s.maps[i].id != id ==> r.value.maps[i] == s.maps[i])
              && (forall i :: 0 <= i < |s.maps| && s.maps[i].id == id ==>
                    r.value.maps[i] == Row(id, s.maps[i].rec.(name := edit.mapName,
                                                               description := edit.description,
                                                               grant := edit.grant)))
              && (forall i :: 0 <= i < |s.bands| && s.bands[i].rec.mapRef != id ==> r.value.bands[i] == s.bands[i])
              && (forall i :: 0 <= i < |s.bands| && s.bands[i].rec.mapRef == id ==>
                    r.value.bands[i] == RegrantBand(s.bands[i], edit.grant))
  {
    match Get(s.maps, id)
    case None => Err(MissingAttribute("name"))
    case Some(_) =>
      var maps := Update(s.maps, id,
                         (m: MapRec) => m.(name := edit.mapName, description := edit.description, grant := edit.grant));
      var bands := seq(|s.bands|, i requires 0 <= i < |s.bands| =>
        if s.bands[i].rec.mapRef == id then RegrantBand(s.bands[i], edit.grant) else s.bands[i]);
      Ok(s.(maps := maps, bands := bands))
  }

  /** `update_map` preserves the validity of the store. */
  lemma UpdateMapKeepsValid(s: Store, id: int, edit: MapEdit)
    requires Valid(s)
    requires UpdateMap(s, id, edit).Ok?
    ensures Valid(UpdateMap(s, id, edit).value)
  {
  }

  /** `delete_map_group`: the row with that key disappears and every other
      group stays, in order; deleting a missing key hands None to `session.delete`. */
  function DeleteMapGroup(s: Store, id: int): (r: Result<Store, Error>)
    ensures r.Err? <==> id !in Ids(s.groups)
    ensures r.Err? ==> r.error == UnmappedInstance
    ensures r.Ok? ==> Ids(r.value.groups) == Ids(s.groups) - {id} && Subsequence(r.value.groups, s.groups)
    ensures r.Ok? ==> forall g :: g in s.groups && g.id != id ==> g in r.value.groups
    ensures r.Ok? ==> r.value.maps == s.maps && r.value.bands == s.bands && r.value.nextId == s.nextId
  {
    if Get(s.groups, id).None? then Err(UnmappedInstance)
    else Ok(s.(groups := Remove(s.groups, id)))
  }

  /** `delete_map`. */
  function DeleteMap(s: Store, id: int): (r: Result<Store, Error>)
    ensures r.Err? <==> id !in Ids(s.maps)
    ensures r.Err? ==> r.error == UnmappedInstance
    ensures r.Ok? ==> Ids(r.value.maps) == Ids(s.maps) - {id} && Subsequence(r.value.maps, s.maps)
    ensures r.Ok? ==> forall m :: m in s.maps && m.id != id ==> m in r.value.maps
    ensures r.Ok? ==> r.value.groups == s.groups && r.value.bands == s.bands && r.value.nextId == s.nextId
  {
    if Get(s.maps, id).None? then Err(UnmappedInstance)
    else Ok(s.(maps := Remove(s.maps, id)))
  }

  /** `delete_band`. */
  function DeleteBand(s: Store, id: int): (r: Result<Store, Error>)
    ensures r.Err? <==> id !in Ids(s.bands)
    ensures r.Err? ==> r.error == UnmappedInstance
    ensures r.Ok? ==> Ids(r.value.bands) == Ids(s.bands) - {id} && Subsequence(r.value.bands, s.bands)
    ensures r.Ok? ==> forall b :: b in s.bands && b.id != id ==> b in r.value.bands
    ensures r.Ok? ==> r.value.groups == s.groups && r.value.maps == s.maps && r.value.nextId == s.nextId
  {
    if Get(s.bands, id).None? then Err(UnmappedInstance)
    else Ok(s.(bands := Remove(s.bands, id)))
  }

  /** After `update_map_group`, reading the group gives back the edit. */
  lemma UpdatedGroupReadsBack(s: Store, id: int, edit: MapGroupEdit)
    requires UniqueIds(s.groups)
    requires UpdateMapGroup(s, id, edit).Ok?
    ensures ReadMapGroup(UpdateMapGroup(s, id, edit).value, id) == Ok(MapGroupItem(edit.groupName, id, edit.grant))
  {
    var t := UpdateMapGroup(s, id, edit).value;
    var i :| 0 <= i < |s.groups| && s.groups[i].id == id;
    assert t.groups[i] == Row(id, MapGroupRec(edit.groupName, edit.description, edit.grant));
    assert UniqueIds(t.groups);
  }

  /** After `delete_map` the deleted key reads as missing, and every other key
      reads as it did before. */
  lemma DeletedMapUnreadable(s: Store, id: int, other: int)
    requires UniqueIds(s.maps)
    requires DeleteMap(s, id).Ok?
    requires other != id
    ensures ReadMap(DeleteMap(s, id).value, id) == Err(IdNotFound("map", id))
    ensures ReadMap(DeleteMap(s, id).value, other) == ReadMap(s, other)
  {
    var t := DeleteMap(s, id).value;
    SubsequenceMembers(t.maps, s.maps);
    match Get(t.maps, other)
    case None =>
    case Some(v) =>
      assert Row(other, v) in s.maps;
      var i :| 0 <= i < |s.maps| && s.maps[i] == Row(other, v);
  }

  /** After `delete_band` the deleted key is gone from every band listing... */
  lemma DeletedBandNotListed(s: Store, id: int, mapKey: int)
    requires DeleteBand(s, id).Ok?
    ensures forall b :: b in ReadBandsForMap(DeleteBand(s, id).value, mapKey) ==> b.id != id
  {
    var t := DeleteBand(s, id).value;
    forall b | b in ReadBandsForMap(t, mapKey) ensures b.id != id {
      var i :| 0 <= i < |t.bands| && b == BandItemOf(t.bands[i]);
      assert t.bands[i].id in Ids(t.bands);
    }
  }

  /** ... and every other band of the map is still listed, unchanged. */
  lemma DeleteBandKeepsSiblings(s: Store, id: int, i: int)
    requires DeleteBand(s, id).Ok?
    requires 0 <= i < |s.bands| && s.bands[i].id != id
    ensures BandItemOf(s.bands[i]) in ReadBandsForMap(DeleteBand(s, id).value, s.bands[i].rec.mapRef)
  {
    var t := DeleteBand(s, id).value;
    assert s.bands[i] in t.bands;
    var j :| 0 <= j < |t.bands| && t.bands[j] == s.bands[i];
  }

  /** After `update_map`, reading the map gives back the edit, and every band
      the map lists carries the new grant. */
  lemma UpdatedMapReadsBack(s: Store, id: int, edit: MapEdit)
    requires UniqueIds(s.maps)
    requires UpdateMap(s, id, edit).Ok?
    ensures var m := ReadMap(UpdateMap(s, id, edit).value, id);
            && m.Ok? && m.value.name == edit.mapName
            && m.value.description == edit.description && m.value.grant == edit.grant
    ensures forall b :: b in ReadBandsForMap(UpdateMap(s, id, edit).value, id) ==> b.grant == edit.grant
  {
    var t := UpdateMap(s, id, edit).value;
    var i :| 0 <= i < |s.maps| && s.maps[i].id == id;
    assert t.maps[i].id == id;
    assert UniqueIds(t.maps);
    forall b | b in ReadBandsForMap(t, id) ensures b.grant == edit.grant {
      var k :| 0 <= k < |t.bands| && b == BandItemOf(t.bands[k]);
      assert t.bands[k].rec.mapRef == id;
    }
  }

  /** After `delete_map_group` the deleted key reads as missing, and every
      other key reads as it did before. */
  lemma DeletedGroupUnreadable(s: Store, id: int, other: int)
    requires UniqueIds(s.groups)
    requires DeleteMapGroup(s, id).Ok?
    requires other != id
    ensures ReadMapGroup(DeleteMapGroup(s, id).value, id) == Err(IdNotFound("map group", id))
    ensures ReadMapGroup(DeleteMapGroup(s, id).value, other) == ReadMapGroup(s, other)
  {
    var t := DeleteMapGroup(s, id).value;
    SubsequenceMembers(t.groups, s.groups);
    match Get(t.groups, other)
    case None =>
    case Some(v) =>
      assert Row(other, v) in s.groups;
      var i :| 0 <= i < |s.groups| && s.groups[i] == Row(other, v);
  }
}

=== FILE: filesystem.dfy ===
/** The sandboxed directory listing of tileadder/service/filesystem.py.

    The disk is abstracted twice over: `listing` is what `search.iterdir()`
    would yield (the child names in iteration order, or the OSError it raises),
    and `stat` answers `stat()` / `is_dir()` for a path. */
module Filesystem {
  import opened Wrappers
  import opened Errors
  import opened Paths
  import opened Seqs

  type Mode = bv32

  /** `stat.S_IROTH`, the others-read permission bit (0o004). */
  const OthersRead: Mode := 0x4

  /** What `Path.stat()` and `Path.is_dir()` report for one path. */
  datatype Stat = Stat(isDir: bool, mode: Mode)

  /** The default `extensions` argument, `("fits",)`. */
  const DefaultExtensions: seq<string> := ["fits"]

  predicate Hidden(name: string) {
    StartsWith(name, ".")
  }

  predicate WorldReadable(mode: Mode) {
    OthersRead & mode != 0
  }

  /** The sandbox test as the code performs it: both sides made absolute, then
      compared component by component without resolving "..". */
  predicate Contained(topLevel: Path, search: Path, cwd: seq<string>)
    ensures search == topLevel ==> Contained(topLevel, search, cwd)
    ensures !topLevel.absolute && !search.absolute ==>
              (Contained(topLevel, search, cwd) <==> topLevel.parts <= search.parts)
  {
    IsRelativeTo(Absolute(search, cwd), Absolute(topLevel, cwd))
  }

  /** The child names that are not dot-files, in iteration order. */
  function Visible(names: seq<string>): (r: seq<string>)
    ensures Subsequence(r, names)
    ensures forall n :: n in r <==> n in names && !Hidden(n)
  {
    Filter(names, (n: string) => !Hidden(n))
  }

  lemma VisibleAll(names: seq<string>)
    requires forall i :: 0 <= i < |names| ==> !Hidden(names[i])
    ensures Visible(names) == names
  {
    FilterKeepsAll(names, (n: string) => !Hidden(n));
  }

  /** `(search / name).relative_to(search)`: the entry as reported to the caller. */
  function ChildPath(search: Path, name: string): (r: Path)
    ensures r == Leaf(name)
  {
    var rel := RelativeTo(Join(search, Leaf(name)), search);
    JoinRelativeToRoundTrip(search, Leaf(name));
    rel.value
  }

  function ChildPaths(search: Path, names: seq<string>): (r: seq<Path>)
    ensures |r| == |names|
    ensures forall i :: 0 <= i < |r| ==> r[i] == Leaf(names[i])
    ensures forall n :: multiset(r)[Leaf(n)] == multiset(names)[n]
  {
    if names == [] then []
    else
      assert names == [names[0]] + names[1..];
      [ChildPath(search, names[0])] + ChildPaths(search, names[1..])
  }

  /** The reported entries are exactly the leaves of the given names. */
  lemma ChildPathsMembers(search: Path, names: seq<string>)
    ensures forall p :: p in ChildPaths(search, names) <==> exists n :: n in names && p == Leaf(n)
  {
    var r := ChildPaths(search, names);
    forall p ensures p in r <==> exists n :: n in names && p == Leaf(n) {
      if p in r {
        var i :| 0 <= i < |r| && r[i] == p;
        assert names[i] in names;
      }
      if exists n :: n in names && p == Leaf(n) {
        var n :| n in names && p == Leaf(n);
        var i :| 0 <= i < |names| && names[i] == n;
        assert r[i] == p;
      }
    }
  }

  /** `safe_read_directory`: the containment check comes first and decides
      alone, whatever the directory holds; then every child whose name does not
      start with "." is reported, relative to `search`, in iteration order. */
  function SafeReadDirectory(topLevel: Path, search: Path, cwd: seq<string>,
                             listing: Result<seq<string>, Error>): (r: Result<seq<Path>, Error>)
    ensures !(Absolute(topLevel, cwd).parts <= Absolute(search, cwd).parts) ==>
              r == Err(PathTraversal(search, topLevel))
    ensures Absolute(topLevel, cwd).parts <= Absolute(search, cwd).parts && listing.Err? ==>
              r == Err(listing.error)
    ensures Absolute(topLevel, cwd).parts <= Absolute(search, cwd).parts && listing.Ok? ==>
              && r.Ok?
              && |r.value| == |Visible(listing.value)|
              && (forall i :: 0 <= i < |r.value| ==> r.value[i] == Leaf(Visible(listing.value)[i]))
              && (forall n :: multiset(r.value)[Leaf(n)] == if Hidden(n) then 0 else multiset(listing.value)[n])
  {
    if !Contained(topLevel, search, cwd) then Err(PathTraversal(search, topLevel))
    else
      var names :- listing;
      Ok(ChildPaths(search, Visible(names)))
  }

  /** The inner loop of `filter_individual`: does `name` end with one of `extensions`? */
  function MatchesExtension(name: string, extensions: seq<string>): (r: bool)
    ensures r <==> exists i :: 0 <= i < |extensions| && EndsWith(name, extensions[i])
  {
    if extensions == [] then false
    else EndsWith(name, extensions[0]) || MatchesExtension(name, extensions[1..])
  }

  /** `filter_individual`: whether one listed item survives. */
  function Keep(search: Path, stat: Path -> Stat, extensions: seq<string>, item: Path): (r: bool)
    ensures !WorldReadable(stat(Join(search, item)).mode) ==> !r
    ensures WorldReadable(stat(Join(search, item)).mode) && stat(Join(search, item)).isDir ==> r
    ensures WorldReadable(stat(Join(search, item)).mode) && !stat(Join(search, item)).isDir ==>
              (r <==> exists i :: 0 <= i < |extensions| && EndsWith(Name(item), extensions[i]))
  {
    var st := stat(Join(search, item));
    if OthersRead & st.mode == 0 then false
    else if st.isDir then true
    else MatchesExtension(Name(item), extensions)
  }

  /** `Keep` with the directory, the stat oracle and the extensions fixed: the
      predicate handed to `filter`. */
  function Keeper(search: Path, stat: Path -> Stat, extensions: seq<string>): Path -> bool {
    (item: Path) => Keep(search, stat, extensions, item)
  }

  /** `safe_read_directory_specific_file_types`: the listing above, narrowed to
      the items `Keep` accepts; its errors come through unchanged. */
  function SafeReadDirectorySpecificFileTypes(topLevel: Path, search: Path, cwd: seq<string>,
                                              listing: Result<seq<string>, Error>,
                                              stat: Path -> Stat, extensions: seq<string>)
    : (r: Result<seq<Path>, Error>)
    ensures SafeReadDirectory(topLevel, search, cwd, listing).Err? ==>
              r == SafeReadDirectory(topLevel, search, cwd, listing)
    ensures SafeReadDirectory(topLevel, search, cwd, listing).Ok? ==>
              && r.Ok?
              && Subsequence(r.value, SafeReadDirectory(topLevel, search, cwd, listing).value)
              && (forall p :: p in r.value <==>
                    p in SafeReadDirectory(topLevel, search, cwd, listing).value &&
                    Keep(search, stat, extensions, p))
    ensures SafeReadDirectory(topLevel, search, cwd, listing).Ok? ==>
              var listed := SafeReadDirectory(topLevel, search, cwd, listing).value;
              (forall i :: 0 <= i < |listed| ==> Keep(search, stat, extensions, listed[i])) ==> r.value == listed
  {
    var potential :- SafeReadDirectory(topLevel, search, cwd, listing);
    var keep := Keeper(search, stat, extensions);
    assert (forall i :: 0 <= i < |potential| ==> keep(potential[i])) ==> Filter(potential, keep) == potential by {
      if forall i :: 0 <= i < |potential| ==> keep(potential[i]) {
        FilterKeepsAll(potential, keep);
      }
    }
    Ok(Filter(potential, keep))
  }

  /** A world-readable child directory that is not a dot-file is always listed,
      a world-readable file exactly when its name ends with one of the
      extensions, and a child the others-read bit is missing from never. */
  lemma ListingPermissions(topLevel: Path, search: Path, cwd: seq<string>, names: seq<string>,
                           stat: Path -> Stat, extensions: seq<string>, n: string)
    requires Contained(topLevel, search, cwd)
    requires n in names
    ensures var r := SafeReadDirectorySpecificFileTypes(topLevel, search, cwd, Ok(names), stat, extensions);
            var st := stat(Join(search, Leaf(n)));
            && r.Ok?
            && (!Hidden(n) && WorldReadable(st.mode) && st.isDir ==> Leaf(n) in r.value)
            && (!Hidden(n) && WorldReadable(st.mode) && !st.isDir ==>
                  (Leaf(n) in r.value <==> MatchesExtension(n, extensions)))
            && (!WorldReadable(st.mode) ==> Leaf(n) !in r.value)
            && (Hidden(n) ==> Leaf(n) !in r.value)
  {
    ListedExactlyVisible(topLevel, search, cwd, names);
    var all := SafeReadDirectory(topLevel, search, cwd, Ok(names)).value;
    assert Leaf(n) in all <==> !Hidden(n);
  }


  /** The extension test is a bare suffix test: with the default extensions a
      file called "outfits" is offered although it has no ".fits" extension. */
  lemma SuffixWithoutDot()
    ensures MatchesExtension("outfits", DefaultExtensions)
    ensures !MatchesExtension("survey.fit", DefaultExtensions)
  {
    assert EndsWith("outfits", DefaultExtensions[0]);
  }

  /** The root itself is always accepted, so an empty relative request lists it. */
  lemma RootIsListable(topLevel: Path, cwd: seq<string>, names: seq<string>)
    ensures SafeReadDirectory(topLevel, topLevel, cwd, Ok(names)).Ok?
  {
  }

  /** Because the containment test does not collapse "..", any path spelled as
      the root followed by ".." components passes it. */
  lemma {:induction false} ParentStepsPassCheck(topLevel: Path, rest: seq<string>, cwd: seq<string>,
                                                names: seq<string>)
    ensures Contained(topLevel, Join(topLevel, Path(false, [ParentComponent] + rest)), cwd)
    ensures SafeReadDirectory(topLevel, Join(topLevel, Path(false, [ParentComponent] + rest)), cwd, Ok(names)).Ok?
  {
    var search := Join(topLevel, Path(false, [ParentComponent] + rest));
    if topLevel.absolute {
      assert Absolute(search, cwd).parts == topLevel.parts + ([ParentComponent] + rest);
    } else {
      assert Absolute(search, cwd).parts == cwd + topLevel.parts + ([ParentComponent] + rest);
    }
  }

  const SandboxRoot: Path := Path(true, ["data", "maps"])
  const EscapingRequest: Path := Path(false, ["..", "..", "etc"])

  /** With root /data/maps, the request "../../etc" is listed although its
      normal form /etc lies outside the root. */
  lemma TraversalAccepted(cwd: seq<string>)
    ensures SafeReadDirectory(SandboxRoot, Join(SandboxRoot, EscapingRequest), cwd, Ok(["passwd"]))
            == Ok([Leaf("passwd")])
    ensures Normalise(Absolute(Join(SandboxRoot, EscapingRequest), cwd).parts) == ["etc"]
    ensures !(Normalise(SandboxRoot.parts) <= ["etc"])
  {
    var search := Join(SandboxRoot, EscapingRequest);
    assert Absolute(search, cwd) == search;
    assert search.parts == ["data", "maps", "..", "..", "etc"];
    assert Contained(SandboxRoot, search, cwd);
    PasswdIsVisible();
    var listed := SafeReadDirectory(SandboxRoot, search, cwd, Ok(["passwd"]));
    assert listed.Ok? && |listed.value| == 1 && listed.value[0] == Leaf("passwd");
    assert listed.value == [Leaf("passwd")];
    EscapeNormalisesToEtc();
    NormaliseIdentity(SandboxRoot.parts);
  }

  lemma PasswdIsVisible()
    ensures Visible(["passwd"]) == ["passwd"]
  {
    assert !Hidden("passwd") by { assert "passwd"[0] != "."[0]; }
    assert ["passwd"][1..] == [];
  }

  lemma EscapeNormalisesToEtc()
    ensures Normalise(["data", "maps", "..", "..", "etc"]) == ["etc"]
  {
    var p := ["data", "maps", "..", "..", "etc"];
    assert p[..4] == ["data", "maps", "..", ".."];
    assert p[..4][..3] == ["data", "maps", ".."];
    assert p[..4][..3][..2] == ["data", "maps"];
    NormaliseIdentity(["data", "maps"]);
    assert Normalise(p[..4][..3]) == ["data"];
    assert Normalise(p[..4]) == [];
  }

  /** The containment test the listing is meant to perform: both sides are
      made absolute and lexically normalised before the prefix test. */
  predicate ContainedNormalised(topLevel: Path, search: Path, cwd: seq<string>) {
    Normalise(Absolute(topLevel, cwd).parts) <= Normalise(Absolute(search, cwd).parts)
  }

  /** `safe_read_directory` with the normalised containment test. */
  function SafeReadDirectoryNormalised(topLevel: Path, search: Path, cwd: seq<string>,
                                       listing: Result<seq<string>, Error>): (r: Result<seq<Path>, Error>)
    ensures !ContainedNormalised(topLevel, search, cwd) ==> r == Err(PathTraversal(search, topLevel))
    ensures ContainedNormalised(topLevel, search, cwd) ==>
              r == SafeReadDirectory(Absolute(search, cwd), search, cwd, listing)
  {
    if !ContainedNormalised(topLevel, search, cwd) then Err(PathTraversal(search, topLevel))
    else
      var names :- listing;
      Ok(ChildPaths(search, Visible(names)))
  }

  /** The corrected check keeps the intended behaviour: every request below
      the root spelled without ".." is accepted, the root included. */
  lemma {:induction false} NormalisedAcceptsDescendants(topLevel: Path, rel: seq<string>,
                                                         cwd: seq<string>, names: seq<string>)
    requires ParentComponent !in rel
    ensures SafeReadDirectoryNormalised(topLevel, Join(topLevel, Path(false, rel)), cwd, Ok(names)).Ok?
  {
    var top := Absolute(topLevel, cwd).parts;
    var search := Join(topLevel, Path(false, rel));
    assert Absolute(search, cwd).parts == top + rel;
    NormaliseAppend(top, rel);
  }

  /** A ".." that only steps back over a component the request itself went
      down into stays inside the root, so the corrected check accepts it. */
  lemma {:induction false} NormalisedAcceptsStepBack(topLevel: Path, rel: seq<string>, x: string,
                                                     rest: seq<string>, cwd: seq<string>, names: seq<string>)
    requires ParentComponent !in rel && x != ParentComponent && ParentComponent !in rest
    ensures SafeReadDirectoryNormalised(topLevel, Join(topLevel, Path(false, rel + [x, ParentComponent] + rest)),
                                        cwd, Ok(names)).Ok?
  {
    var top := Absolute(topLevel, cwd).parts;
    var request := rel + [x, ParentComponent] + rest;
    var search := Join(topLevel, Path(false, request));
    assert Absolute(search, cwd).parts == top + request;
    NormaliseDetour(top, rel, x, rest);
  }

  /** ... and the escaping request of `TraversalAccepted` is rejected. */
  lemma NormalisedRejectsEscape(cwd: seq<string>)
    ensures SafeReadDirectoryNormalised(SandboxRoot, Join(SandboxRoot, EscapingRequest), cwd, Ok(["passwd"]))
            == Err(PathTraversal(Join(SandboxRoot, EscapingRequest), SandboxRoot))
  {
    TraversalAccepted(cwd);
    NormaliseIdentity(SandboxRoot.parts);
  }

  /** On paths without "..", the corrected check and the one in the code agree. */
  lemma NormalisedAgreesWithoutParentSteps(topLevel: Path, search: Path, cwd: seq<string>,
                                           listing: Result<seq<string>, Error>)
    requires ParentComponent !in Absolute(topLevel, cwd).parts
    requires ParentComponent !in Absolute(search, cwd).parts
    ensures SafeReadDirectoryNormalised(topLevel, search, cwd, listing)
            == SafeReadDirectory(topLevel, search, cwd, listing)
  {
    NormaliseIdentity(Absolute(topLevel, cwd).parts);
    NormaliseIdentity(Absolute(search, cwd).parts);
  }

  /** `safe_read_directory_specific_file_types` over the corrected listing. */
  function SafeReadDirectorySpecificFileTypesNormalised(topLevel: Path, search: Path, cwd: seq<string>,
                                                        listing: Result<seq<string>, Error>,
                                                        stat: Path -> Stat, extensions: seq<string>)
    : (r: Result<seq<Path>, Error>)
    ensures !ContainedNormalised(topLevel, search, cwd) ==> r == Err(PathTraversal(search, topLevel))
    ensures ContainedNormalised(topLevel, search, cwd) ==>
              r == SafeReadDirectorySpecificFileTypes(Absolute(search, cwd), search, cwd, listing, stat, extensions)
    ensures ContainedNormalised(topLevel, search, cwd) && listing.Err? ==> r == Err(listing.error)
    ensures ContainedNormalised(topLevel, search, cwd) && listing.Ok? ==> r.Ok?
    ensures r.Ok? ==> forall p :: p in r.value <==>
              (exists n :: n in listing.value && !Hidden(n) && p == Leaf(n)) && Keep(search, stat, extensions, p)
  {
    if !ContainedNormalised(topLevel, search, cwd) then Err(PathTraversal(search, topLevel))
    else
      var r := SafeReadDirectorySpecificFileTypes(Absolute(search, cwd), search, cwd, listing, stat, extensions);
      assert r.Ok? ==> forall p :: p in r.value <==>
               (exists n :: n in listing.value && !Hidden(n) && p == Leaf(n)) && Keep(search, stat, extensions, p) by {
        if listing.Ok? {
          ListedExactlyVisible(Absolute(search, cwd), search, cwd, listing.value);
        }
      }
      r
  }

  /** The entries a contained listing reports are exactly the visible names. */
  lemma ListedExactlyVisible(topLevel: Path, search: Path, cwd: seq<string>, names: seq<string>)
    requires Contained(topLevel, search, cwd)
    ensures forall p :: p in SafeReadDirectory(topLevel, search, cwd, Ok(names)).value <==>
              exists n :: n in names && !Hidden(n) && p == Leaf(n)
  {
    var visible := Visible(names);
    assert SafeReadDirectory(topLevel, search, cwd, Ok(names)) == Ok(ChildPaths(search, visible));
    ChildPathsMembers(search, visible);
  }

}

=== FILE: paths.dfy ===
/** The purely lexical part of Python's `pathlib` that the sandbox relies on.
    A path is its anchor flag and its list of components; nothing here looks
    at a disk, so `..` is an ordinary component until `Normalise` collapses it. */
module Paths {
  import opened Wrappers

  /** A parsed `PurePosixPath`: `absolute` is true when the path starts at "/",
      `parts` are its components without the anchor. Parsing has already dropped
      empty and "." components; ".." is kept as written. */
  datatype Path = Path(absolute: bool, parts: seq<string>)

  const ParentComponent: string := ".."

  /** The relative one-component path `name`. */
  function Leaf(name: string): Path {
    Path(false, [name])
  }

  /** `str.startswith`. */
  predicate StartsWith(s: string, prefix: string) {
    prefix <= s
  }

  /** `str.endswith`: a plain suffix test, so the empty suffix matches everything. */
  predicate EndsWith(s: string, suffix: string) {
    |suffix| <= |s| && s[|s| - |suffix|..] == suffix
  }

  /** `Path.absolute()` with working directory `cwd` (the components of an
      absolute path). An absolute path is returned unchanged; a relative one is
      placed under `cwd` with no ".." collapsed. */
  function Absolute(p: Path, cwd: seq<string>): (r: Path)
    ensures r.absolute
    ensures p.absolute ==> r == p
    ensures |p.parts| <= |r.parts| && p.parts == r.parts[|r.parts| - |p.parts|..]
    ensures !p.absolute ==> cwd <= r.parts && |r.parts| == |cwd| + |p.parts|
  {
    if p.absolute then p else Path(true, cwd + p.parts)
  }

  /** `a / b`: an absolute right operand replaces the left one. */
  function Join(a: Path, b: Path): (r: Path)
    ensures b.absolute ==> r == b
    ensures !b.absolute ==> r.absolute == a.absolute && |r.parts| == |a.parts| + |b.parts|
  {
    if b.absolute then b else Path(a.absolute, a.parts + b.parts)
  }

  /** `p.is_relative_to(base)`: same anchor and `base`'s components are a
      prefix of `p`'s. Nothing is normalised. */
  predicate IsRelativeTo(p: Path, base: Path)
    ensures base == p ==> IsRelativeTo(p, base)
    ensures IsRelativeTo(p, base) && |p.parts| == |base.parts| ==> p == base
  {
    p.absolute == base.absolute && base.parts <= p.parts
  }

  /** `p` is relative to `base` exactly when it is `base` joined with some
      relative path. */
  lemma IsRelativeToJoin(p: Path, base: Path)
    ensures IsRelativeTo(p, base) <==> exists rest :: Join(base, Path(false, rest)) == p
  {
    if IsRelativeTo(p, base) {
      assert Join(base, Path(false, p.parts[|base.parts|..])) == p;
    }
  }

  /** `p.relative_to(base)`; `None` stands for the ValueError raised when `p`
      is not relative to `base`. */
  function RelativeTo(p: Path, base: Path): (r: Option<Path>)
    ensures r.Some? <==> IsRelativeTo(p, base)
    ensures r.Some? ==> !r.value.absolute && Join(base, r.value) == p
  {
    if IsRelativeTo(p, base) then Some(Path(false, p.parts[|base.parts|..])) else None
  }

  /** Joining a relative path and taking it back off again gives the relative path. */
  lemma JoinRelativeToRoundTrip(a: Path, b: Path)
    requires !b.absolute
    ensures RelativeTo(Join(a, b), a) == Some(b)
  {
    assert (a.parts + b.parts)[|a.parts|..] == b.parts;
  }

  /** `p.name`: the last component, or "" for a path without components. */
  function Name(p: Path): (r: string)
    ensures |p.parts| == 0 ==> r == ""
    ensures |p.parts| > 0 ==> Join(Path(p.absolute, p.parts[..|p.parts| - 1]), Leaf(r)) == p
  {
    if |p.parts| == 0 then "" else p.parts[|p.parts| - 1]
  }

  /** `p.parent`: drops the last component; "/" and "." are their own parent. */
  function Parent(p: Path): (r: Path)
    ensures r.absolute == p.absolute
    ensures r.parts <= p.parts
    ensures |p.parts| > 0 ==> Join(r, Leaf(Name(p))) == p
    ensures |p.parts| == 0 ==> r == p
  {
    if |p.parts| == 0 then p else Path(p.absolute, p.parts[..|p.parts| - 1])
  }

  /** Lexical normalisation of the components of an absolute path, as
      `os.path.normpath` does it: each ".." removes the component before it,
      and a ".." at the root stays at the root. Symbolic links are not followed. */
  function Normalise(parts: seq<string>): (r: seq<string>)
    ensures ParentComponent !in r
    ensures |r| <= |parts|
  {
    if parts == [] then []
    else
      var base := Normalise(parts[..|parts| - 1]);
      var last := parts[|parts| - 1];
      if last == ParentComponent then
        (if base == [] then [] else base[..|base| - 1])
      else base + [last]
  }

  /** Components without ".." pass through normalisation unchanged, whatever precedes them. */
  lemma {:induction false} NormaliseAppend(a: seq<string>, b: seq<string>)
    requires ParentComponent !in b
    ensures Normalise(a + b) == Normalise(a) + b
    decreases |b|
  {
    if b == [] {
      assert a + b == a;
    } else {
      var b' := b[..|b| - 1];
      assert (a + b)[..|a + b| - 1] == a + b';
      assert (a + b)[|a + b| - 1] == b[|b| - 1];
      NormaliseAppend(a, b');
      assert b' + [b[|b| - 1]] == b;
    }
  }

  /** A ".." cancels the component just before it. */
  lemma NormaliseDropsStep(a: seq<string>, x: string)
    requires x != ParentComponent
    ensures Normalise(a + [x, ParentComponent]) == Normalise(a)
  {
    var s := a + [x, ParentComponent];
    assert s[..|s| - 1] == a + [x];
    assert (a + [x])[..|a|] == a;
  }

  /** Going down into a component and straight back out leaves the normal
      form as if that detour had not been taken. */
  lemma NormaliseDetour(a: seq<string>, rel: seq<string>, x: string, rest: seq<string>)
    requires ParentComponent !in rel && x != ParentComponent && ParentComponent !in rest
    ensures Normalise(a + (rel + [x, ParentComponent] + rest)) == Normalise(a) + (rel + rest)
  {
    var down := a + rel;
    var back := down + [x, ParentComponent];
    assert a + (rel + [x, ParentComponent] + rest) == back + rest;
    NormaliseAppend(back, rest);
    NormaliseDropsStep(down, x);
    NormaliseAppend(a, rel);
    assert Normalise(down) + rest == Normalise(a) + (rel + rest);
  }

  /** A ".." at the root stays at the root: a leading ".." is dropped. */
  lemma {:induction false} NormaliseRootStep(b: seq<string>)
    ensures Normalise([ParentComponent] + b) == Normalise(b)
    decreases |b|
  {
    if b != [] {
      var s := [ParentComponent] + b;
      var b', last := b[..|b| - 1], b[|b| - 1];
      assert s[..|s| - 1] == [ParentComponent] + b';
      assert s[|s| - 1] == last;
      NormaliseRootStep(b');
      assert Normalise(s[..|s| - 1]) == Normalise(b');
    }
  }

  /** A path without ".." is already normal. */
  lemma NormaliseIdentity(parts: seq<string>)
    requires ParentComponent !in parts
    ensures Normalise(parts) == parts
  {
    NormaliseAppend([], parts);
    assert [] + parts == parts;
  }
}

=== FILE: reader.dfy ===
/** The boundary to the data-file reader (`safe_evaluate`, which is not part
    of this model): what it returns, and its type as an oracle. */
module Reader {
  import opened Wrappers
  import opened Errors
  import opened Paths

  /** The reader's provider descriptor, already serialised; never inspected. */
  datatype Provider = Provider(json: string)

  /** One layer the reader found in a data file. */
  datatype LayerDescriptor = LayerDescriptor(layerId: string, name: string, description: Option<string>,
                                             quantity: Option<string>, units: Option<string>,
                                             boundingLeft: real, boundingRight: real,
                                             boundingTop: real, boundingBottom: real,
                                             numberOfLevels: int, tileSize: int, provider: Provider)

  /** `safe_evaluate(top_level, file_path, extensions)`; `None` for
      `extensions` means the caller left the reader's own default in place. */
  type Evaluator = (Path, Path, Option<seq<string>>) -> Result<seq<LayerDescriptor>, Error>
}

=== FILE: seqs.dfy ===
/** Order-preserving selection from sequences: Python's list comprehensions
    with an `if` and the built-in `filter` all reduce to `Filter` below. */
module Seqs {

  /** `a` is `b` with some elements left out and the others in their original order. */
  predicate Subsequence<T(==)>(a: seq<T>, b: seq<T>)
    decreases |b|
  {
    if a == [] then true
    else if b == [] then false
    else if a[0] == b[0] then Subsequence(a[1..], b[1..])
    else Subsequence(a, b[1..])
  }

  lemma {:induction false} SubsequenceMembers<T>(a: seq<T>, b: seq<T>)
    requires Subsequence(a, b)
    ensures |a| <= |b|
    ensures forall x :: x in a ==> x in b
    decreases |b|
  {
    if a != [] {
      if a[0] == b[0] {
        SubsequenceMembers(a[1..], b[1..]);
        assert forall x :: x in a ==> x == a[0] || x in a[1..];
      } else {
        SubsequenceMembers(a, b[1..]);
      }
    }
  }

  /** The elements of `s` that satisfy `p`, in the order of `s`; each kept
      element is kept as often as it occurs in `s`. */
  function Filter<T(==,!new)>(s: seq<T>, p: T -> bool): (r: seq<T>)
    ensures Subsequence(r, s)
    ensures forall x :: x in r <==> x in s && p(x)
    ensures forall x :: multiset(r)[x] == if p(x) then multiset(s)[x] else 0
    ensures forall i :: 0 <= i < |r| ==> p(r[i])
  {
    if s == [] then []
    else
      var rest := Filter(s[1..], p);
      assert s == [s[0]] + s[1..];
      if p(s[0]) then [s[0]] + rest else rest
  }

  /** Filtering by a predicate and by its negation splits `s` without loss. */
  lemma {:induction false} FilterComplement<T(!new)>(s: seq<T>, p: T -> bool, q: T -> bool)
    requires forall x :: q(x) == !p(x)
    ensures |Filter(s, p)| + |Filter(s, q)| == |s|
  {
    if s != [] {
      FilterComplement(s[1..], p, q);
    }
  }

  /** Filtering by a predicate every element satisfies keeps everything. */
  lemma {:induction false} FilterKeepsAll<T(!new)>(s: seq<T>, p: T -> bool)
    requires forall i :: 0 <= i < |s| ==> p(s[i])
    ensures Filter(s, p) == s
  {
    if s != [] {
      FilterKeepsAll(s[1..], p);
    }
  }
}

=== FILE: store.dfy ===
/** The persisted hierarchy map group -> map -> band -> layer.

    Groups, maps and bands are tables; the layers of a band are kept inside
    the band row in relationship order. Keys come from one counter `nextId`
    that only grows, standing in for the database's key allocation. */
module Store {
  import opened Wrappers
  import opened Tables
  import opened Reader

  /** A display bound: a number, or "auto" (computed when rendering). */
  datatype Bound = Auto | Value(x: real)

  /** What a layer takes from the data file rather than from the form. */
  datatype Geometry = Geometry(provider: Provider,
                               boundingLeft: real, boundingRight: real,
                               boundingTop: real, boundingBottom: real,
                               numberOfLevels: int, tileSize: int)

  datatype LayerRec = LayerRec(layerId: string, name: Option<string>, description: Option<string>,
                               grant: Option<string>, quantity: Option<string>, units: Option<string>,
                               vmin: Bound, vmax: Bound, cmap: string, geometry: Geometry)

  /** `mapRef` is the integer key of the owning map. */
  datatype BandRec = BandRec(bandId: string, name: string, description: Option<string>,
                             grant: Option<string>, mapRef: int, layers: Table<LayerRec>)

  datatype MapRec = MapRec(mapId: string, name: string, description: Option<string>,
                           grant: Option<string>, mapGroupId: int)

  datatype MapGroupRec = MapGroupRec(name: string, description: Option<string>, grant: Option<string>)

  datatype Store = Store(groups: Table<MapGroupRec>, maps: Table<MapRec>,
                         bands: Table<BandRec>, nextId: int)

  /** Keys are unique per table and below `nextId`; bands refer to map keys
      already handed out. */
  ghost predicate Valid(s: Store) {
    && UniqueIds(s.groups) && UniqueIds(s.maps) && UniqueIds(s.bands)
    && IdsBelow(s.groups, s.nextId) && IdsBelow(s.maps, s.nextId) && IdsBelow(s.bands, s.nextId)
    && (forall i :: 0 <= i < |s.bands| ==>
          s.bands[i].rec.mapRef < s.nextId && IdsBelow(s.bands[i].rec.layers, s.nextId))
  }

  /** A band built from a form, before it is flushed and given keys. */
  datatype NewBand = NewBand(bandId: string, name: string, description: Option<string>,
                             grant: Option<string>, layers: seq<LayerRec>)

  /** A map built from a form, holding the one band it is created with. */
  datatype NewMap = NewMap(mapId: string, name: string, description: Option<string>,
                           grant: Option<string>, mapGroupId: int, band: NewBand)

  /** Layers flushed with consecutive keys from `first` on, in order. */
  function Number(layers: seq<LayerRec>, first: int): (r: Table<LayerRec>)
    ensures |r| == |layers| && Recs(r) == layers
    ensures IdsBelow(r, first + |layers|)
    ensures forall i :: 0 <= i < |r| ==> r[i].id >= first
  {
    seq(|layers|, i requires 0 <= i < |layers| => Row(first + i, layers[i]))
  }

  /** Adds a map group (`session.add` + `commit`); returns its key. */
  function InsertGroup(s: Store, group: MapGroupRec): (r: (Store, int))
    ensures r.0.groups == s.groups + [Row(r.1, group)]
    ensures Valid(s) ==> r.1 !in Ids(s.groups)
    ensures r.0.maps == s.maps && r.0.bands == s.bands
    ensures Valid(s) ==> Valid(r.0)
  {
    (s.(groups := s.groups + [Row(s.nextId, group)], nextId := s.nextId + 1), s.nextId)
  }

  /** Adds a map together with its band and the band's layers; the map's key
      is the old `nextId`. */
  function InsertMap(s: Store, m: NewMap): (r: Store)
    ensures r.groups == s.groups
    ensures r.maps == s.maps + [Row(s.nextId, MapRec(m.mapId, m.name, m.description, m.grant, m.mapGroupId))]
    ensures |r.bands| == |s.bands| + 1 && r.bands[..|s.bands|] == s.bands
    ensures var b := r.bands[|s.bands|].rec;
            && b.bandId == m.band.bandId && b.name == m.band.name
            && b.description == m.band.description && b.grant == m.band.grant
            && b.mapRef == s.nextId && Recs(b.layers) == m.band.layers
    ensures Valid(s) ==> Valid(r)
  {
    var mapRow := Row(s.nextId, MapRec(m.mapId, m.name, m.description, m.grant, m.mapGroupId));
    var band := BandRec(m.band.bandId, m.band.name, m.band.description, m.band.grant,
                        s.nextId, Number(m.band.layers, s.nextId + 2));
    Store(s.groups, s.maps + [mapRow], s.bands + [Row(s.nextId + 1, band)],
          s.nextId + 2 + |m.band.layers|)
  }

  /** In a valid store, a freshly inserted map owns exactly one band. */
  lemma InsertedMapHasOneBand(s: Store, m: NewMap)
    requires Valid(s)
    ensures var r := InsertMap(s, m);
            Where(r.bands, (b: BandRec) => b.mapRef == s.nextId) == [r.bands[|s.bands|]]
  {
    var r := InsertMap(s, m);
    var p := (b: BandRec) => b.mapRef == s.nextId;
    var owned := Where(r.bands, p);
    Seqs.SubsequenceMembers(owned, r.bands);
    assert forall row :: row in owned ==> row == r.bands[|s.bands|] by {
      forall row | row in owned ensures row == r.bands[|s.bands|] {
        var i :| 0 <= i < |r.bands| && r.bands[i] == row;
        if i < |s.bands| {
          assert s.bands[i] == row;
        }
      }
    }
    assert r.bands[|s.bands|] in owned;
    OnlyElement(owned, r.bands[|s.bands|]);
  }

  /** A sequence whose every element is `x`, holding `x` exactly once, is `[x]`. */
  lemma OnlyElement<T>(a: seq<T>, x: T)
    requires x in a
    requires forall y :: y in a ==> y == x
    requires multiset(a)[x] <= 1
    ensures a == [x]
  {
    AllSameCount(a, x);
    assert a[0] in a;
  }

  lemma {:induction false} AllSameCount<T>(a: seq<T>, x: T)
    requires forall y :: y in a ==> y == x
    ensures multiset(a)[x] == |a|
  {
    if a != [] {
      assert a == [a[0]] + a[1..];
      assert a[0] in a;
      assert forall y :: y in a[1..] ==> y in a;
      AllSameCount(a[1..], x);
    }
  }

  /** Appends `layers` to the band with key `bandKey`, giving them fresh keys;
      every other band, every map and every group is left as it was. */
  function AppendLayers(s: Store, bandKey: int, layers: seq<LayerRec>): (r: Store)
    ensures r.groups == s.groups && r.maps == s.maps
    ensures |r.bands| == |s.bands| && Ids(r.bands) == Ids(s.bands)
    ensures forall i :: 0 <= i < |s.bands| && s.bands[i].id != bandKey ==> r.bands[i] == s.bands[i]
    ensures forall i :: 0 <= i < |s.bands| && s.bands[i].id == bandKey ==>
              && r.bands[i].rec == s.bands[i].rec.(layers := r.bands[i].rec.layers)
              && Recs(r.bands[i].rec.layers) == Recs(s.bands[i].rec.layers) + layers
    ensures Valid(s) ==> Valid(r)
  {
    var added := Number(layers, s.nextId);
    var bands := seq(|s.bands|, i requires 0 <= i < |s.bands| =>
      if s.bands[i].id == bandKey
      then Row(bandKey, s.bands[i].rec.(layers := s.bands[i].rec.layers + added))
      else s.bands[i]);
    assert forall i :: 0 <= i < |s.bands| && s.bands[i].id == bandKey ==>
      Recs(bands[i].rec.layers) == Recs(s.bands[i].rec.layers) + layers;
    SameKeys(bands, s.bands);
    assert Valid(s) ==> Valid(s.(bands := bands, nextId := s.nextId + |layers|)) by {
      if Valid(s) {
        AppendedBandsValid(s, bandKey, added, bands);
      }
    }
    s.(bands := bands, nextId := s.nextId + |layers|)
  }

  /** Appending layers keyed from `nextId` on to one band keeps keys unique
      and below the advanced counter. */
  lemma AppendedBandsValid(s: Store, bandKey: int, added: Table<LayerRec>, bands: Table<BandRec>)
    requires Valid(s)
    requires IdsBelow(added, s.nextId + |added|)
    requires |bands| == |s.bands|
    requires forall i :: 0 <= i < |s.bands| ==>
               bands[i] == if s.bands[i].id == bandKey
                           then Row(bandKey, s.bands[i].rec.(layers := s.bands[i].rec.layers + added))
                           else s.bands[i]
    ensures Valid(s.(bands := bands, nextId := s.nextId + |added|))
  {
    var next := s.nextId + |added|;
    SameKeys(bands, s.bands);
    forall i | 0 <= i < |bands|
      ensures bands[i].id < next && bands[i].rec.mapRef < next && IdsBelow(bands[i].rec.layers, next)
    {
      var before := s.bands[i].rec.layers;
      assert IdsBelow(before, s.nextId);
      if s.bands[i].id == bandKey {
        forall k | 0 <= k < |bands[i].rec.layers| ensures bands[i].rec.layers[k].id < next {
          if k < |before| {
            assert bands[i].rec.layers[k] == before[k];
          } else {
            assert bands[i].rec.layers[k] == added[k - |before|];
          }
        }
      }
    }
  }

  /** Adds a band, with its layers, to the map with key `mapKey`; the band's
      key is the old `nextId`. */
  function InsertBand(s: Store, band: NewBand, mapKey: int): (r: Store)
    ensures r.groups == s.groups && r.maps == s.maps
    ensures |r.bands| == |s.bands| + 1 && r.bands[..|s.bands|] == s.bands
    ensures var b := r.bands[|s.bands|];
            && b.id == s.nextId && (Valid(s) ==> b.id !in Ids(s.bands))
            && b.rec.bandId == band.bandId && b.rec.name == band.name
            && b.rec.description == band.description && b.rec.grant == band.grant
            && b.rec.mapRef == mapKey && Recs(b.rec.layers) == band.layers
    ensures Valid(s) && mapKey < s.nextId ==> Valid(r)
  {
    var row := Row(s.nextId, BandRec(band.bandId, band.name, band.description, band.grant,
                                     mapKey, Number(band.layers, s.nextId + 1)));
    s.(bands := s.bands + [row], nextId := s.nextId + 1 + |band.layers|)
  }
}

=== FILE: tables.dfy ===
/** Database tables as the model sees them: rows in insertion order, each
    with an integer primary key. A `select ... where` is an order-preserving
    filter, `session.get` a lookup by key. */
module Tables {
  import opened Wrappers
  import opened Errors
  import opened Seqs

  datatype Row<+R> = Row(id: int, rec: R)

  type Table<R> = seq<Row<R>>

  function Ids<R>(t: Table<R>): set<int> {
    set i | 0 <= i < |t| :: t[i].id
  }

  function Recs<R>(t: Table<R>): (r: seq<R>)
    ensures |r| == |t|
    ensures forall i :: 0 <= i < |t| ==> r[i] == t[i].rec
  {
    seq(|t|, i requires 0 <= i < |t| => t[i].rec)
  }

  /** Primary keys are unique. */
  ghost predicate UniqueIds<R>(t: Table<R>) {
    forall i, j :: 0 <= i < |t| && 0 <= j < |t| && t[i].id == t[j].id ==> i == j
  }

  /** Tables whose rows carry the same keys in the same places have the same
      key set, and one has unique keys exactly when the other does. */
  lemma SameKeys<R, S>(a: Table<R>, b: Table<S>)
    requires |a| == |b| && forall i :: 0 <= i < |a| ==> a[i].id == b[i].id
    ensures Ids(a) == Ids(b)
    ensures UniqueIds(a) <==> UniqueIds(b)
  {
    forall k ensures k in Ids(a) <==> k in Ids(b) {
      if k in Ids(a) {
        var i :| 0 <= i < |a| && a[i].id == k;
        assert b[i].id == k;
      }
      if k in Ids(b) {
        var i :| 0 <= i < |b| && b[i].id == k;
        assert a[i].id == k;
      }
    }
  }

  /** Every key is below `bound`, so `bound` and above are free. */
  ghost predicate IdsBelow<R>(t: Table<R>, bound: int) {
    forall i :: 0 <= i < |t| ==> t[i].id < bound
  }

  /** Lookup by primary key (`session.get`, or a `select` on the id column
      followed by `scalar_one_or_none`); `None` when no row has that key. */
  function Get<R>(t: Table<R>, id: int): (r: Option<R>)
    ensures r.None? <==> id !in Ids(t)
    ensures r.Some? ==> Row(id, r.value) in t
    ensures r.Some? && UniqueIds(t) ==> forall i :: 0 <= i < |t| && t[i].id == id ==> t[i].rec == r.value
  {
    if t == [] then None
    else if t[0].id == id then Some(t[0].rec)
    else
      var r := Get(t[1..], id);
      assert Ids(t) == {t[0].id} + Ids(t[1..]);
      r
  }

  /** `select(...).where(p)`: the rows satisfying `p`, in table order. */
  function Where<R(==,!new)>(t: Table<R>, p: R -> bool): (r: Table<R>)
    ensures Subsequence(r, t)
    ensures forall row :: row in r <==> row in t && p(row.rec)
  {
    Filter(t, (row: Row<R>) => p(row.rec))
  }

  /** `scalar_one_or_none()` over a query result. */
  function OneOrNone<R>(rows: Table<R>): (r: Result<Option<Row<R>>, Error>)
    ensures r.Err? <==> |rows| > 1
    ensures r.Err? ==> r.error == MultipleResultsFound
    ensures r == Ok(None) <==> rows == []
    ensures r.Ok? && r.value.Some? ==> rows == [r.value.value]
  {
    if |rows| == 0 then Ok(None)
    else if |rows| == 1 then Ok(Some(rows[0]))
    else Err(MultipleResultsFound)
  }

  /** The row with key `id` has its record rewritten by `edit`; every other
      row, and the order, stay. */
  function Update<R>(t: Table<R>, id: int, edit: R -> R): (r: Table<R>)
    ensures |r| == |t| && Ids(r) == Ids(t)
    ensures forall i :: 0 <= i < |t| ==> r[i].id == t[i].id
    ensures forall i :: 0 <= i < |t| && t[i].id == id ==> r[i].rec == edit(t[i].rec)
    ensures forall i :: 0 <= i < |t| && t[i].id != id ==> r[i] == t[i]
  {
    var r := seq(|t|, i requires 0 <= i < |t| => if t[i].id == id then Row(id, edit(t[i].rec)) else t[i]);
    assert forall k :: k in Ids(r) <==> k in Ids(t) by {
      forall k ensures k in Ids(r) <==> k in Ids(t) {
        if k in Ids(r) {
          var i :| 0 <= i < |r| && r[i].id == k;
          assert t[i].id == k;
        }
        if k in Ids(t) {
          var i :| 0 <= i < |t| && t[i].id == k;
          assert r[i].id == k;
        }
      }
    }
    r
  }

  /** `session.delete` of the row with key `id`: that key disappears, every other
      row stays, in order. */
  function Remove<R(==,!new)>(t: Table<R>, id: int): (r: Table<R>)
    ensures Subsequence(r, t)
    ensures Ids(r) == Ids(t) - {id}
    ensures forall row :: row in t && row.id != id ==> row in r
  {
    var r := Filter(t, (row: Row<R>) => row.id != id);
    assert forall k :: k in Ids(r) <==> k in Ids(t) && k != id by {
      forall k ensures k in Ids(r) <==> k in Ids(t) && k != id {
        if k in Ids(r) {
          var i :| 0 <= i < |r| && r[i].id == k;
          assert r[i] in t;
        }
        if k in Ids(t) && k != id {
          var i :| 0 <= i < |t| && t[i].id == k;
          assert t[i] in r;
        }
      }
    }
    r
  }
}

=== FILE: wrappers.dfy ===
/** Failure-compatible wrappers shared by every module of the model: `Option`
    stands for Python's `X | None`, `Result` for "returns a value or raises". */
module Wrappers {

  datatype Option<+T> = None | Some(value: T)

  datatype Result<+T, +E> = Ok(value: T) | Err(error: E) {

    predicate IsFailure() {
      Err?
    }

    function PropagateFailure<U>(): Result<U, E>
      requires Err?
    {
      Err(error)
    }

    function Extract(): T
      requires Ok?
    {
      value
    }
  }
}
